=== FILE: README.md ===
# Bra-size quiz calculator

A model of the size calculator of the storefront bra-size quiz
(`assets/bra-quiz.js`), together with proofs about it. It covers:

- band rounding (`roundBandSizeSU`);
- the cup table and cup-scale moves (`getCupSize`, `adjustCupSize`);
- the whole of `calculateBraSize`: the input checks, the two band estimates,
  the cup-difference rounding, the breast-spacing move, de-duplication, and
  the sister-size, relaxed-fit and firm-fit suggestions with their messages;
- the contact-tag rewrite done when the quiz form is submitted.

Measurements are exact reals in inches, and 0 stands for a missing answer.
Cups are positions 0..13 on the scale D, DD, E, F, FF, G, GG, H, HH, J, JJ, K,
KK, L. The letter-level functions of the program (`GetCupSize`,
`AdjustCupSize`) are modelled as written and proved to agree with that index
arithmetic.

Modules:

- `Seqs`: array helpers (`indexOf`, `map`, `filter`, `[...new Set(xs)]`).
- `Strings`: `trim`, `split`, `join`, number formatting, `replace(/\s+/g, …)`
  and the case-insensitive prefix test.
- `Bands`: `roundBandSizeSU`.
- `Cups`: the cup scale, `getCupSize` and `adjustCupSize`.
- `Calculator`: `calculateBraSize`, as a function from `Measurements` to an
  error or a `Sized` result.
- `Display`: the result record with its size strings and messages, and a
  parser that reads a size string back.
- `Tags`: the rewrite of the contact-tag field.

The main results:

- The outcome is classified completely (`CalculateOutcome`).
- The main band is the smaller of the two rounded estimates (`MainBand`).
- The main cups follow the stated rounding rule, moved by the spacing
  (`MainCupRule`).
- Each suggestion is offered exactly when its trigger holds and has the
  stated shape (`SisterRule`, `RelaxedRule`, `FirmRule`).
- A written size reads back as the size it came from (`SizeStringRoundTrip`).
- The tag rewrite keeps every other tag, leaves exactly one size tag (the
  last one) and is idempotent.

Behaviour of the code worth knowing, all of it proved:

- **Band-28 sister sizes.** The band-28 sister list runs from E to KK
  (`assets/bra-quiz.js:678`).
- **Smallest band.** SU 25, TU 23 and overbusts 30 and 32 give "26 E" with
  no suggestion, because the band-26 sister list starts at F
  (`Calculator.ExampleSmallestBand`).
- **Band 42.** The sister rule for band 42 can never fire, because the
  range checks keep the band at 40 or below (`Calculator.SisterRule`).
- **Cup-difference rounding gaps.** The leftover ranges 0.01-0.24, 0.25-0.59
  and 0.60-0.99 leave gaps: below 0.01, between 0.24 and 0.25, between 0.59
  and 0.60, and above 0.99. A difference falling in a gap takes the final
  `else` branch and is rounded down (`Calculator.RoundDifferenceRule`).
  `roundBandSizeSU` likewise treats an even whole part with less than 0.01
  left over as that even number.
- **Relaxed-fit odd test.** The test that both underbands are odd
  (`bothOdd`) uses the whole part of TU, not of TU + 2. The two tests agree,
  because adding 2 keeps the parity of the whole part
  (`Calculator.BothOddShifted`).
- **Repeated cups in suggestions.** Only the main cups are de-duplicated. A
  suggestion whose moved cups collide keeps both: side-set breasts with a
  5.3 inch difference get "30 D/DD" with relaxed fit "32 D/D"
  (`Calculator.RelaxedFitRepeatsCup`).

## Model

| member | source | states |
|---|---|---|
| Seqs.IndexOf | assets/bra-quiz.js:573-574 | the position found holds the letter and no earlier position does; -1 exactly when the letter is absent |
| Seqs.Map | assets/bra-quiz.js:641 | mapping keeps the length and applies the function at every position |
| Seqs.Filter | assets/bra-quiz.js:641 | filtering keeps exactly the elements that pass, never lengthens, and keeps a list whose elements all pass |
| Seqs.FilterAppend | assets/bra-quiz.js:882 | filtering a concatenation is concatenating the filtered halves, so filtering keeps order |
| Seqs.FilterCons | assets/bra-quiz.js:880 | a first element is kept in front exactly when it passes the filter |
| Seqs.Dedup | assets/bra-quiz.js:654 | `[...new Set(xs)]` has the same elements, no repetitions, is no longer, and leaves a repetition-free list unchanged; `DedupKeepsOrder` gives the order |
| Seqs.IndexOfDistinct | assets/bra-quiz.js:572-573 | in a list without repetitions `indexOf` finds each element at its own position |
| Seqs.IndexOfPrefix | assets/bra-quiz.js:573 | an element of a list is found at the same place after more elements are appended |
| Seqs.IndexOfAppended | assets/bra-quiz.js:573 | an element missing from a list is found at the end once appended |
| Seqs.DedupKeepsOrder | assets/bra-quiz.js:654 | `[...new Set(xs)]` lists the elements in the order of their first occurrence; with the contract of `Dedup` this determines the result |
| Strings.IsWhitespace | assets/bra-quiz.js:875 | the ECMAScript white-space and line-terminator characters matched by `\s` and stripped by `trim` (line 879); `Strings.TrimStart`, `Strings.Trim` and `Strings.ReplaceWhitespaceRuns` state what is done with them |
| Strings.TrimStart | assets/bra-quiz.js:879 | removes exactly the leading white space: the result is a suffix, what is cut is white space, and the result does not start with white space |
| Strings.TrimEnd | assets/bra-quiz.js:879 | removes exactly the trailing white space |
| Strings.Trim | assets/bra-quiz.js:879 | the result has white space at neither end, adds no character, and leaves a trimmed string alone |
| Strings.TrimPadded | assets/bra-quiz.js:879 | a blank put in front of a trimmed tag is trimmed away again |
| Strings.Join | assets/bra-quiz.js:889 | `Array.prototype.join`; its properties are stated by `Strings.SplitJoin`, `Strings.JoinCommaSpace` and `Strings.JoinChars` |
| Strings.JoinPrefixFirst | assets/bra-quiz.js:889 | characters in front of the first part stay in front of the joined string |
| Strings.JoinChars | assets/bra-quiz.js:889 | every character of a joined string comes from a part or from the separator |
| Strings.Split | assets/bra-quiz.js:878 | `split` gives at least one part, no part contains the separator, and joining the parts with the separator gives the string back |
| Strings.SplitFound | assets/bra-quiz.js:878 | a string split into more than one part contains the separator |
| Strings.JoinCons | assets/bra-quiz.js:889 | joining a part in front of a non-empty list puts the separator between them |
| Strings.SplitJoin | assets/bra-quiz.js:878-889 | splitting a joined list gives the list back when no part contains the separator |
| Strings.JoinFirst | assets/bra-quiz.js:889 | a string joined from two or more parts has its first separator right after the first part |
| Strings.SplitFirst | assets/bra-quiz.js:878 | a string splits at its first separator into the text before it and the parts of the text after it |
| Strings.JoinCommaSpace | assets/bra-quiz.js:889 | joining with ", " is joining with "," after a blank is put before every part except the first |
| Strings.DigitChar | assets/bra-quiz.js:662 | the character is a decimal digit with the given value |
| Strings.NatToString | assets/bra-quiz.js:662 | a non-negative number is written as one or more decimal digits, starting with 0 only for 0 itself, so with no leading zeros |
| Strings.IntToString | assets/bra-quiz.js:662 | `${n}` below 10^21 in magnitude is the canonical numeral of a non-negative number, and a minus sign before it for a negative one |
| Strings.NatToStringRoundTrip | assets/bra-quiz.js:662 | the written numeral reads back as the number |
| Strings.NatToStringCanonical | assets/bra-quiz.js:662 | every numeral without leading zeros is the one `NatToString` writes for its value, so the written numeral is the canonical one |
| Strings.DigitsPositive | assets/bra-quiz.js:662 | a numeral that does not start with 0 has a positive value |
| Strings.ReplaceWhitespaceRuns | assets/bra-quiz.js:875 | the result holds no white space, adds nothing but the replacement character, and leaves a string without white space unchanged |
| Strings.TrimStartRun | assets/bra-quiz.js:875 | a white-space run in front of a string that does not start with white space is exactly what trimming the front removes |
| Strings.ReplaceRun | assets/bra-quiz.js:875 | a word followed by a maximal white-space run: the word is kept, the whole run becomes one replacement character and the rest is replaced in turn; with the identity on strings without white space this determines `replace(/\s+/g, …)` |
| Strings.ReplaceWord | assets/bra-quiz.js:875 | characters without white space in front are kept as they are |
| Strings.ReplaceLeadingRun | assets/bra-quiz.js:875 | a whole leading run of white space becomes one replacement character |
| Strings.StartsWithIgnoreCase | assets/bra-quiz.js:882 | `/^prefix/i.test(s)` for a prefix of lower-case ASCII characters, where only ASCII letters need folding; `Tags.QuizTagWellFormed` and `Tags.SizeTag` state what it decides |
| Bands.Frac | assets/bra-quiz.js:523-524 | the decimal part lies in [0, 1) and adds up with the whole part to the measurement |
| Bands.Ceil | assets/bra-quiz.js:533 | `Math.ceil` is the least integer at or above its argument |
| Bands.CeilHalfOfOdd | assets/bra-quiz.js:532-533 | for an odd whole part, rounding half up and doubling gives the next (even) integer |
| Bands.RoundBand | assets/bra-quiz.js:522-547 | the band is even, at most half an inch below and less than 1.5 inches above the measurement; an odd whole part goes up by one, an even whole part stays when at most 0.50 is left over and goes up by two otherwise |
| Bands.RoundBandFixedPoints | assets/bra-quiz.js:526-529 | exactly the even whole numbers round to themselves, so rounding twice is rounding once |
| Bands.RoundBandMonotonic | assets/bra-quiz.js:522-547 | a larger measurement never gives a smaller band |
| Cups.LabelIndex | assets/bra-quiz.js:572-574 | the cup a letter names is on the scale, or -1 |
| Cups.LabelOfIndex | assets/bra-quiz.js:572-573 | a string that has a cup index is that cup's letter |
| Cups.LabelIndexOnScale | assets/bra-quiz.js:572-574 | only letters of the scale have a cup index |
| Cups.LabelIndexIsIndexOf | assets/bra-quiz.js:572-574 | the letter lookup is `cupOrder.indexOf`: the position on the scale, or -1 |
| Cups.LabelIndexInverts | assets/bra-quiz.js:572 | every letter of the scale names its own cup |
| Cups.ScaleDistinct | assets/bra-quiz.js:572 | the letters of the scale are pairwise different |
| Cups.GetCupSize | assets/bra-quiz.js:550-568 | `getCupSize`, the table as written; `Cups.GetCupSizeIsScale` states what it maps |
| Cups.GetCupSizeIsScale | assets/bra-quiz.js:550-568 | the table maps differences 4..17 onto the scale from D to L in order, and anything else to the empty string |
| Cups.CupOfDifference | assets/bra-quiz.js:550-568 | a cup exists exactly when `getCupSize` names a letter, and that cup has this letter |
| Cups.Clamp | assets/bra-quiz.js:576 | positions on the scale stay; positions below go to D and positions above go to L |
| Cups.Shift | assets/bra-quiz.js:576 | `index + adjustment` clamped to the scale; `Cups.ShiftBounds` states that it is exact away from the ends and never overshoots, and `Cups.AdjustCupSizeIsShift` that it is what `adjustCupSize` does to a letter |
| Cups.AdjustCupSize | assets/bra-quiz.js:571-578 | `adjustCupSize`, as written on letters; `Cups.AdjustCupSizeIsShift` states that it is a clamped shift |
| Cups.AdjustCupSizeIsShift | assets/bra-quiz.js:571-578 | adjusting a letter is moving its cup with clamping; a string that is not on the scale comes back unchanged |
| Cups.ShiftBounds | assets/bra-quiz.js:576 | a move is exact away from the ends and never overshoots in either direction |
| Cups.ShiftAll | assets/bra-quiz.js:646-649 | every cup of the list is moved the same number of steps, and the length is kept |
| Cups.Labels | assets/bra-quiz.js:641 | the letters of a cup list, one per cup |
| Cups.LabelNamesCup | assets/bra-quiz.js:572 | no letter of the scale is the empty string |
| Cups.AdjustAllIsShiftAll | assets/bra-quiz.js:691-699 | adjusting every letter and filtering out empty strings (also at lines 732 and 748) is shifting every cup: the filter never removes a letter |
| Calculator.SpacingSteps | assets/bra-quiz.js:644-651 | the spacing moves the cups by at most one step |
| Calculator.SpacingOf | assets/bra-quiz.js:644-651 | the classification of the spacing answer; `Calculator.SpacingAnswers` states the codes |
| Calculator.SpacingAnswers | assets/bra-quiz.js:644-651 | "no_space" and "CS" move one cup up, "more_than_2_fingers" and "SS" one cup down, and a missing answer not at all |
| Calculator.SpacingOtherAnswers | assets/bra-quiz.js:643-652 | an answer leaves the cups alone exactly when it is none of the four spacing codes |
| Calculator.RoundDifference | assets/bra-quiz.js:621-638 | one or two candidates; the first is the whole inches unless the only one is the next inch; two candidates are neighbours |
| Calculator.RoundDifferenceRule | assets/bra-quiz.js:621-638 | a rest of 0.25-0.59 gives both neighbouring inches, 0.60-0.99 the next inch, any other rest the whole inches (each an if-and-only-if); every candidate is within one inch of the difference |
| Calculator.RoundBoth | assets/bra-quiz.js:629-631 | a rest of 0.25-0.59 gives the whole inches and the next one |
| Calculator.RoundUp | assets/bra-quiz.js:632-634 | a rest of 0.60-0.99 gives the next inch |
| Calculator.RoundDown | assets/bra-quiz.js:626-628 | any other rest gives the whole inches |
| Calculator.CupsOfDifferences | assets/bra-quiz.js:641 | a list of differences that all name no cup gives none; differences that all name cups give the cups in order, four less each; `CupsOfDifferencesIsFilterMap` covers mixed lists |
| Calculator.CupsOfDifferencesIsFilterMap | assets/bra-quiz.js:641 | the letters of the cups are `map(getCupSize)` followed by `filter(cup => cup !== '')`, in order |
| Calculator.MainCups | assets/bra-quiz.js:641-654 | for a carried difference, map, filter, spacing move and de-duplication together amount to subtracting four and adding the spacing step from each rounded candidate |
| Calculator.MainCupsCarried | assets/bra-quiz.js:616-654 | a carried difference gives one cup or two neighbouring cups, none above KK |
| Calculator.CarriedDifferences | assets/bra-quiz.js:616-638 | a carried difference rounds to neighbouring whole inches between 5 and 15 |
| Calculator.CarriedCups | assets/bra-quiz.js:641-654 | the cups of such candidates, moved at most one step and de-duplicated, are the candidates less four plus the step |
| Calculator.CarriedBase | assets/bra-quiz.js:641 | differences from 5 to 15 all name cups |
| Calculator.CarriedShift | assets/bra-quiz.js:643-654 | the spacing move is never cut short by an end of the scale (DD..K moved one step stays within D..KK), and de-duplication removes nothing |
| Calculator.ShiftWithinScale | assets/bra-quiz.js:646-649 | moving cups DD..K by one step is exact and keeps neighbours apart |
| Calculator.SisterListsAreRanges | assets/bra-quiz.js:677-679 | the band-26 list is F..L, the band-28 list E..KK and the band-42 list D..JJ |
| Calculator.SomeCupIn | assets/bra-quiz.js:682-684 | `cupSizes.some(cup => list.includes(cup))`; with `Calculator.SisterListsAreRanges`, the contract of `Calculator.Sister` and `Calculator.SisterRule` state when it holds for the three lists |
| Calculator.Sister | assets/bra-quiz.js:675-707 | a sister size exists exactly for band 26 with a cup from F up, band 28 with a cup from E to KK, or band 42 with a cup up to JJ; it is band 30 two cups down, band 30 one cup down, or band 40 one cup up |
| Calculator.Relaxed | assets/bra-quiz.js:709-739 | a relaxed fit exists exactly when the trigger holds, the underbands are not both odd, and the band stays at most 44; it takes the larger estimate when the estimates differ, else one band up, and one cup down |
| Calculator.Firm | assets/bra-quiz.js:741-755 | a firm fit exists exactly when the trigger holds and the band minus two is at least 26; it is one band down and one cup up |
| Calculator.RelaxedTrigger | assets/bra-quiz.js:710-718 | the relaxed-fit trigger as written; `Calculator.RelaxedRule` states when it offers a relaxed fit |
| Calculator.BothOdd | assets/bra-quiz.js:721 | both underbands have an odd whole part; used by `Calculator.RelaxedRule` |
| Calculator.BothOddShifted | assets/bra-quiz.js:721 | testing the whole part of TU or of TU + 2 for oddness gives the same answer |
| Calculator.FirmTrigger | assets/bra-quiz.js:742-743 | the firm-fit trigger as written; `Calculator.FirmRule` states when it offers a firm fit |
| Calculator.CarriedBandRange | assets/bra-quiz.js:594-604 | for carried underbands both band estimates lie between 26 and 40 |
| Calculator.BandA | assets/bra-quiz.js:600 | method A of the band; `Calculator.MainBand` states the band chosen |
| Calculator.BandB | assets/bra-quiz.js:603-604 | method B of the band; `Calculator.MainBand` states the band chosen |
| Calculator.CupDifference | assets/bra-quiz.js:612-613 | average overbust minus snug underband; `Calculator.MainCupRule` states the cups it gives |
| Calculator.Complete | assets/bra-quiz.js:589 | all four measurements are given; `Calculator.CalculateOutcome` states that the incomplete message comes exactly when it fails |
| Calculator.BandsCarried | assets/bra-quiz.js:594 | SU within 25..40.5 and TU within 23..38.5; `Calculator.CalculateOutcome` states that failing it on complete input gives the not-carried message |
| Calculator.CupCarried | assets/bra-quiz.js:616 | the cup difference within 5..15; `Calculator.CalculateOutcome` states that failing it on complete input gives the not-carried message, and `Calculator.MainCupsCarried` what passing it gives |
| Calculator.Calculate | assets/bra-quiz.js:580-758 | an error carries one of the two messages of the program; a sized result has an even band from 26 to 40 and one or two neighbouring cups between D and KK |
| Calculator.Recommend | assets/bra-quiz.js:598-757 | for carried measurements the only possible error is the not-carried message, and a main size is well formed |
| Calculator.CalculateOutcome | assets/bra-quiz.js:588-618 | the incomplete message comes exactly when a measurement is missing, the not-carried message exactly when all are given but an underband or the cup difference is out of range, and every other input is sized |
| Calculator.SizedParts | assets/bra-quiz.js:588-618 | a sized result comes from complete, carried measurements |
| Calculator.RecommendMain | assets/bra-quiz.js:600-662 | the main size is the smaller estimate with the main cups |
| Calculator.RecommendSuggestions | assets/bra-quiz.js:675-755 | the suggestions are derived from the main size and the two estimates |
| Calculator.MainBand | assets/bra-quiz.js:598-607 | the main band is the smaller estimate, at most each estimate, even, and from 26 to 40 |
| Calculator.CupRule | assets/bra-quiz.js:620-650 | the cup rounding rule with the spacing step, for a carried difference |
| Calculator.OneCupOfRounded | assets/bra-quiz.js:641-654 | one rounded candidate gives one main cup, four less, moved by the spacing |
| Calculator.TwoCupsOfRounded | assets/bra-quiz.js:641-654 | two rounded candidates give the two neighbouring main cups |
| Calculator.CupRuleBoth | assets/bra-quiz.js:629-631 | a rest of 0.25-0.59 gives both neighbouring cups |
| Calculator.CupRuleUp | assets/bra-quiz.js:632-634 | a rest of 0.60-0.99 gives the cup of the next inch |
| Calculator.CupRuleDown | assets/bra-quiz.js:626-628 | any other rest gives the cup of the whole inches |
| Calculator.MainCupRule | assets/bra-quiz.js:610-654 | the main cups of a sized result follow the rounding rule on the cup difference, one cup up for close-set and one down for side-set breasts |
| Calculator.MainOf | assets/bra-quiz.js:600-662 | the main size of a sized result is the smaller estimate with the main cups |
| Calculator.CupRuleOf | assets/bra-quiz.js:620-654 | the rounding rule for the cup difference of a set of measurements |
| Calculator.SisterRule | assets/bra-quiz.js:675-707 | a sister size is offered exactly at band 26 with a cup from F up and at band 28 with a cup from E to KK, as band 30 with the cups two or one steps down; the band-42 rule never fires |
| Calculator.RelaxedRule | assets/bra-quiz.js:709-739 | a relaxed fit is offered exactly when the trigger holds and the underbands are not both odd; the 44 limit never suppresses it |
| Calculator.SuggestionsOf | assets/bra-quiz.js:675-755 | the suggestions of a sized result come from its main size and the two estimates |
| Calculator.RelaxedOf | assets/bra-quiz.js:709-739 | the relaxed-fit rule for estimates between 26 and 40 |
| Calculator.FirmRule | assets/bra-quiz.js:741-755 | a firm fit is offered exactly when the trigger holds and the band is at least 28, one band down and one cup up |
| Calculator.SuggestionsKeepCupCount | assets/bra-quiz.js:691-699 | every suggestion has as many cups as the main size; no moved cup is filtered out |
| Calculator.Assembly | assets/bra-quiz.js:598-757 | the band estimates and the main cups determine the whole result |
| Calculator.RelaxedFitRepeatsCup | assets/bra-quiz.js:732-737 | SU 30.3, TU 28.3, overbusts 35.6 and side-set give "30 D/DD" with relaxed fit "32 D/D" |
| Calculator.RelaxedFitRepeatsCupMain | assets/bra-quiz.js:600-613 | the cup difference and both estimates for that input |
| Calculator.RelaxedFitRepeatsCupCups | assets/bra-quiz.js:629-650 | a 5.3 inch difference, side-set, gives cups D and DD |
| Calculator.RelaxedFitRepeatsCupSuggestions | assets/bra-quiz.js:675-755 | no sister or firm fit, and relaxed fit "32 D/D" |
| Calculator.ExampleAverage | assets/bra-quiz.js:580-758 | SU 32, TU 28, overbusts 37 and 39 give "30 E", relaxed "32 DD", firm "28 F" |
| Calculator.ExampleAverageMain | assets/bra-quiz.js:600-613 | the cup difference is 6 and the estimates are 32 and 30 |
| Calculator.SixInchCup | assets/bra-quiz.js:635-650 | a 6 inch difference with average spacing gives cup E (used by both six-inch examples) |
| Calculator.ExampleAverageSuggestions | assets/bra-quiz.js:675-755 | no sister size, relaxed "32 DD", firm "28 F" |
| Calculator.ExampleSmallestBand | assets/bra-quiz.js:580-758 | SU 25, TU 23, overbusts 30 and 32 give "26 E" and no suggestion |
| Calculator.ExampleSmallestBandMain | assets/bra-quiz.js:600-613 | the cup difference is 6 and both estimates are 26 |
| Calculator.ExampleSmallestBandSuggestions | assets/bra-quiz.js:675-755 | band 26 with cup E has no sister size, no relaxed and no firm fit |
| Calculator.AllSuggestionsTogether | assets/bra-quiz.js:580-758 | SU 28.6, TU 25.5, overbusts 35.6 give "28 F" with sister "30 E", relaxed "30 E" and firm "26 FF" |
| Calculator.AllSuggestionsTogetherMain | assets/bra-quiz.js:600-613 | the cup difference is 7 and the estimates are 30 and 28 |
| Calculator.AllSuggestionsTogetherCups | assets/bra-quiz.js:635-650 | a 7 inch difference with average spacing gives cup F |
| Calculator.AllSuggestionsTogetherSuggestions | assets/bra-quiz.js:675-755 | band 28 with cup F has all three suggestions |
| Display.CupString | assets/bra-quiz.js:661 | the cup letters joined by "/"; `Display.CupStringParts` splits it back |
| Display.SizeString | assets/bra-quiz.js:662 | the band, a blank and the cup string; `Display.SizeStringRoundTrip` reads it back |
| Display.Message | assets/bra-quiz.js:705 | a message is the fixed text, then the suggested size, then the closing text, each at its place |
| Display.SizeText | assets/bra-quiz.js:702-704 | a suggestion is written exactly when it exists, as its size string |
| Display.MessageText | assets/bra-quiz.js:734-737 | a message exists exactly when its suggestion exists |
| Display.Render | assets/bra-quiz.js:657-757 | the record is an error exactly for an error result, and otherwise holds the main size and suggestions as size strings |
| Display.RenderMessages | assets/bra-quiz.js:702-755 | every suggestion comes with its message and every message with its suggestion, and the message names that suggestion |
| Display.LabelLetters | assets/bra-quiz.js:572 | cup letters are non-empty runs of upper-case letters |
| Display.ParseCups | assets/bra-quiz.js:661 | reads cup letters back; on success each cup has the letter given, and it fails only on a string off the scale |
| Display.ParseSize | assets/bra-quiz.js:661-662 | a size read back has a non-negative band and at least one cup, and the text had a blank |
| Display.ParseCupsLabels | assets/bra-quiz.js:661 | the letters of a cup list read back as that list |
| Display.CupStringLetters | assets/bra-quiz.js:661 | a cup string holds only letters and slashes |
| Display.SizeStringRoundTrip | assets/bra-quiz.js:661-662 | a size string reads back as the size it was written from |
| Display.SizeStringParts | assets/bra-quiz.js:662 | a size string splits at its one blank into the band numeral and the cup string |
| Display.CupStringParts | assets/bra-quiz.js:661 | a cup string splits at its slashes into the cup letters |
| Display.SizeStringInjective | assets/bra-quiz.js:661-662 | two sizes are written the same exactly when they are equal |
| Display.MainSizeReadsBack | assets/bra-quiz.js:661-666 | the main size the calculator writes reads back as the size it computed |
| Tags.ParseTags | assets/bra-quiz.js:877-880 | every parsed tag is non-empty, trimmed and free of commas |
| Tags.NonEmpty | assets/bra-quiz.js:880 | `tag.length > 0`; `Tags.ParseTags` states that every parsed tag passes it |
| Tags.SizeTag | assets/bra-quiz.js:875 | the size tag starts with "bra-size-" and holds no white space after it |
| Tags.QuizTagWellFormed | assets/bra-quiz.js:882-886 | "bra-quiz" is a well-formed tag and not a size tag |
| Tags.WithQuizTag | assets/bra-quiz.js:884-886 | "bra-quiz" is pushed at the end exactly when it is missing; nothing else changes |
| Tags.KeptTags | assets/bra-quiz.js:877-886 | the kept tags are exactly the parsed tags that are not size tags, plus "bra-quiz" |
| Tags.IsSizeTag | assets/bra-quiz.js:882 | `/^bra-size-/i`; `Tags.SizeTag` and `Tags.QuizTagWellFormed` state it for the tags the rewrite writes |
| Tags.NotSizeTag | assets/bra-quiz.js:882 | `!/^bra-size-/i.test(tag)`; `Tags.KeptTags` and `Tags.RewriteTagsKeeps` state that exactly the tags passing it survive |
| Tags.RewriteTags | assets/bra-quiz.js:874-889 | the rewrite as written; `Tags.RewriteTagsList`, `Tags.RewriteTagsKeeps` and `Tags.RewriteTagsIdempotent` state what it does |
| Tags.SubmitTags | assets/bra-quiz.js:872-889 | an error leaves the field unchanged; a sized result rewrites it with its main size |
| Tags.SizeTagWellFormed | assets/bra-quiz.js:875 | the size tag of a size without commas is a well-formed tag |
| Tags.ParseJoinedTags | assets/bra-quiz.js:877-889 | parsing a ", "-joined list of well-formed tags gives the list back |
| Tags.RewriteTagsList | assets/bra-quiz.js:874-889 | the rewritten field parses as the kept tags followed by the size tag |
| Tags.RewriteTagsShape | assets/bra-quiz.js:882-889 | after the rewrite there is exactly one size tag, the last, and "bra-quiz" is present |
| Tags.AppendedShape | assets/bra-quiz.js:888 | a tag appended to a list without size tags is the only tag that may be a size tag |
| Tags.RewriteTagsKeeps | assets/bra-quiz.js:877-889 | every tag that is not a size tag survives, and only "bra-quiz" and the size tag are added |
| Tags.RewriteTagsIdempotent | assets/bra-quiz.js:874-889 | rewriting the field twice with the same size is rewriting it once |
| Tags.SubmittedSizeTag | assets/bra-quiz.js:873-875 | the main size of a sized result has no comma, and its tag is "bra-size-", the band, "-" and the cup string |
| Tags.SizeSlug | assets/bra-quiz.js:875 | the blank of a size string becomes the one dash of its tag |
| Tags.SizeStringWords | assets/bra-quiz.js:875 | the band numeral and the cup string hold neither white space nor commas |
| Tags.ReplaceSingleBlank | assets/bra-quiz.js:875 | a single blank between two words without white space is replaced by the one character |

## Left out

- Reading the answers from the page and `parseFloat`: the model starts from the numbers. A missing or unparsable answer is 0 and a missing spacing answer is "".
- IEEE floating point: measurements are exact reals. A difference such as 5.3 has no exact binary value in JavaScript, which may round a rest at a range boundary differently.
- `sessionStorage`, the note and body fields, and everything else done with the result after the tags are rewritten: storage and page updates only.
- Absence of the contact-tag input element (`assets/bra-quiz.js:872-873`): the model always has a field, given as a string.
- The DOM wiring of the quiz steps, the measurement collection and the form submission: user-interface code with no computation.
- Calculator.MainCups: stated only for carried differences (5 to 15 inches), the only ones `calculateBraSize` rounds.
- Tags.RewriteTagsList: stated for a main size without commas. Every size the calculator writes has none (`Tags.SubmittedSizeTag`).

=== FILE: bands.dfy ===
/** Band rounding: roundBandSizeSU turns a measurement in inches into an
    even band size. Measurements are exact reals; `Floor` is `Math.floor`. */
module Bands {

  predicate IsEven(n: int) {
    n % 2 == 0
  }

  /** The fractional part of `x`, in [0, 1). */
  function Frac(x: real): (f: real)
    ensures 0.0 <= f < 1.0
    ensures x == x.Floor as real + f
  {
    x - x.Floor as real
  }

  /** `Math.ceil`. */
  function Ceil(x: real): (r: int)
    ensures x <= r as real < x + 1.0
  {
    -((-x).Floor)
  }

  /** For a measurement whose whole part is odd, rounding half of it up and
      doubling lands on the even number just above the whole part. */
  lemma CeilHalfOfOdd(x: real)
    requires !IsEven(x.Floor)
    ensures Ceil(x / 2.0) * 2 == x.Floor + 1
  {
    var k := (x.Floor - 1) / 2;
    assert x.Floor == 2 * k + 1;
    var c := Ceil(x / 2.0);
    assert (2 * k + 1) as real <= x < (2 * k + 2) as real;
    assert k as real < x / 2.0 <= c as real;
    assert c as real < x / 2.0 + 1.0 <= (k + 2) as real;
    assert c == k + 1;
  }

  /** roundBandSizeSU. The band is the least even integer that is no more than
      half an inch below the measurement: the whole part itself when it is
      even and at most half an inch is left over, the next even number
      otherwise. */
  function RoundBand(x: real): (r: int)
    ensures IsEven(r)
    ensures x - 0.5 <= r as real < x + 1.5
    ensures x.Floor <= r <= x.Floor + 2
    ensures !IsEven(x.Floor) ==> r == x.Floor + 1
    ensures IsEven(x.Floor) && Frac(x) <= 0.50 ==> r == x.Floor
    ensures IsEven(x.Floor) && Frac(x) > 0.50 ==> r == x.Floor + 2
  {
    var whole := x.Floor;
    var decimal := x - whole as real;
    if decimal == 0.0 && whole % 2 == 0 then whole
    else if whole % 2 != 0 then
      CeilHalfOfOdd(x);
      Ceil(x / 2.0) * 2
    else if 0.01 <= decimal <= 0.50 then whole
    else if 0.50 < decimal < 1.0 then whole + 2
    else whole
  }

  /** Even whole numbers, and only they, are left as they are; so rounding
      twice is rounding once. */
  lemma RoundBandFixedPoints(n: int, x: real)
    ensures RoundBand(n as real) == n <==> IsEven(n)
    ensures RoundBand(RoundBand(x) as real) == RoundBand(x)
  {
    assert (n as real).Floor == n;
    var r := RoundBand(x);
    assert (r as real).Floor == r;
  }

  /** A larger measurement never gives a smaller band. */
  lemma RoundBandMonotonic(x: real, y: real)
    requires x <= y
    ensures RoundBand(x) <= RoundBand(y)
  {
    var a := RoundBand(x);
    var b := RoundBand(y);
    assert a as real - 2.0 < x - 0.5;
    assert a % 2 == 0 && b % 2 == 0;
    assert a < b + 2;
  }
}

=== FILE: calculator.dfy ===
/** calculateBraSize: four body measurements and a breast-spacing answer give
    either an error message or a main size with up to three alternative
    suggestions (sister size, relaxed fit, firm fit). Measurements are exact
    reals in inches, 0 meaning "not given". */
module Calculator {
  import opened Seqs
  import opened Bands
  import opened Cups

  /** The quiz answers: snug underband (SU), tight underband (TU), standing
      overbust (SO), leaning overbust (LO) and the breast-spacing answer code. */
  datatype Measurements = Measurements(
    snugUnderband: real,
    tightUnderband: real,
    standingOverbust: real,
    leaningOverbust: real,
    breastSpace: string)

  /** How far apart the breasts sit. */
  datatype Spacing = CloseSet | AverageSpace | SideSet

  /** The answer codes of the spacing question; any other answer, or none, is average. */
  function SpacingOf(answer: string): Spacing {
    if answer == "no_space" || answer == "CS" then CloseSet
    else if answer == "more_than_2_fingers" || answer == "SS" then SideSet
    else AverageSpace
  }

  /** Close-set breasts take one cup more, side-set one cup less. */
  function SpacingSteps(s: Spacing): (steps: int)
    ensures -1 <= steps <= 1
  {
    match s
    case CloseSet => 1
    case AverageSpace => 0
    case SideSet => -1
  }

  /** Both codes of each spacing answer move the cups the same way; a
      missing answer leaves them alone. */
  lemma SpacingAnswers()
    ensures SpacingSteps(SpacingOf("no_space")) == SpacingSteps(SpacingOf("CS")) == 1
    ensures SpacingSteps(SpacingOf("more_than_2_fingers")) == SpacingSteps(SpacingOf("SS")) == -1
    ensures SpacingSteps(SpacingOf("")) == 0
  {
  }

  /** Any answer other than the four spacing codes leaves the cups alone. */
  lemma SpacingOtherAnswers(answer: string)
    ensures SpacingSteps(SpacingOf(answer)) == 0 <==>
              answer != "no_space" && answer != "CS" && answer != "more_than_2_fingers" && answer != "SS"
  {
  }

  /** A band size with one or more cups (shown as "30 DD/E"). */
  datatype Size = Size(band: int, cups: seq<Cup>)

  datatype SizeResult =
    | Error(message: string)
    | Sized(main: Size, sister: Option<Size>, relaxed: Option<Size>, firm: Option<Size>)

  const IncompleteMessage: string := "Please complete all measurements"
  const NotCarriedMessage: string := "Sorry, we don't carry your size yet - but we're working on it!"

  /** All four measurements were given. */
  predicate Complete(m: Measurements) {
    && m.snugUnderband != 0.0
    && m.tightUnderband != 0.0
    && m.standingOverbust != 0.0
    && m.leaningOverbust != 0.0
  }

  /** The underband measurements lie in the range the shop stocks bands for. */
  predicate BandsCarried(m: Measurements) {
    && 25.0 <= m.snugUnderband <= 40.5
    && 23.0 <= m.tightUnderband <= 38.5
  }

  /** Average overbust minus snug underband. */
  function CupDifference(m: Measurements): real {
    (m.standingOverbust + m.leaningOverbust) / 2.0 - m.snugUnderband
  }

  /** The cup difference lies in the range the shop stocks cups for. */
  predicate CupCarried(m: Measurements) {
    5.0 <= CupDifference(m) <= 15.0
  }

  /** The whole-inch differences a measured difference stands for: the
      whole inches, the next inch, or both. */
  function RoundDifference(difference: real): (r: seq<int>)
    ensures 1 <= |r| <= 2
    ensures r[0] == difference.Floor || r == [difference.Floor + 1]
    ensures |r| == 2 ==> r[1] == r[0] + 1
  {
    var whole := difference.Floor;
    var decimal := difference - whole as real;
    if 0.01 <= decimal <= 0.24 then [whole]
    else if 0.25 <= decimal <= 0.59 then [whole, whole + 1]
    else if 0.60 <= decimal <= 0.99 then [whole + 1]
    else [whole]
  }

  /** The cups of whole-inch differences, dropping differences that name no cup. */
  function CupsOfDifferences(differences: seq<int>): (r: seq<Cup>)
    ensures |r| <= |differences|
    ensures (forall i :: 0 <= i < |differences| ==> !(4 <= differences[i] <= 17)) ==> r == []
    ensures (forall i :: 0 <= i < |differences| ==> 4 <= differences[i] <= 17) ==>
              |r| == |differences| && forall i :: 0 <= i < |r| ==> r[i] == differences[i] - 4
    decreases |differences|
  {
    if |differences| == 0 then []
    else
      var rest := CupsOfDifferences(differences[1..]);
      match CupOfDifference(differences[0])
      case Some(c) => [c] + rest
      case None => rest
  }

  /** `baseCupSizes.map(getCupSize).filter(cup => cup !== '')`: the letters
      of the cups of the differences are the table's letters for them, with
      the empty strings of differences off the table dropped, in order. */
  lemma {:induction false} CupsOfDifferencesIsFilterMap(differences: seq<int>)
    ensures Labels(CupsOfDifferences(differences)) == Filter(Map(differences, GetCupSize), NamesCup)
    decreases |differences|
  {
    if |differences| > 0 {
      var d := differences[0];
      var rest := CupsOfDifferences(differences[1..]);
      var restLetters := Map(differences[1..], GetCupSize);
      assert Map(differences, GetCupSize) == [GetCupSize(d)] + restLetters;
      FilterCons(GetCupSize(d), restLetters, NamesCup);
      CupsOfDifferencesIsFilterMap(differences[1..]);
      match CupOfDifference(d)
      case Some(c) =>
        assert CupsOfDifferences(differences) == [c] + rest;
        LabelsCons(c, rest);
      case None =>
        assert CupsOfDifferences(differences) == rest;
    }
  }

  /** The main cups: the rounded differences as cups, moved by the spacing,
      de-duplicated. For a carried difference this is exact index arithmetic:
      no move is cut short by an end of the scale (DD..K moved one step stays
      within D..KK), so neither the clamping nor the de-duplication has any effect, and the result is one cup or two
      neighbouring cups between D and KK. */
  function MainCups(difference: real, space: string): (cups: seq<Cup>)
    requires 5.0 <= difference <= 15.0
    ensures |cups| == |RoundDifference(difference)|
    ensures forall i :: 0 <= i < |cups| ==>
              cups[i] == RoundDifference(difference)[i] - 4 + SpacingSteps(SpacingOf(space))
  {
    var steps := SpacingSteps(SpacingOf(space));
    var differences := RoundDifference(difference);
    CarriedDifferences(difference);
    CarriedCups(differences, steps);
    Dedup(ShiftAll(CupsOfDifferences(differences), steps))
  }

  /** For a carried difference the main cups are one cup or two
      neighbouring cups, none above KK. */
  lemma MainCupsCarried(difference: real, space: string)
    requires 5.0 <= difference <= 15.0
    ensures var cups := MainCups(difference, space);
      && 1 <= |cups| <= 2
      && (|cups| == 2 ==> cups[1] == cups[0] as int + 1)
      && (forall i :: 0 <= i < |cups| ==> cups[i] <= 12)
  {
    CarriedDifferences(difference);
  }

  /** A carried difference rounds to one whole inch or two neighbouring whole
      inches from 5 to 15, which name cups DD to K. */
  lemma CarriedDifferences(difference: real)
    requires 5.0 <= difference <= 15.0
    ensures var r := RoundDifference(difference);
      && (forall i :: 0 <= i < |r| ==> 5 <= r[i] <= 15)
      && (|r| == 2 ==> r[1] == r[0] + 1)
  {
    RoundDifferenceRule(difference);
  }

  /** The rounding rule: with `w` the whole inches and `f` the rest, a rest
      of 0.25 to 0.59 stands for both `w` and `w + 1`, a rest of 0.60 to 0.99
      for `w + 1`, any other rest for `w`. The rests in the gaps between these
      ranges (below 0.01, strictly between 0.24 and 0.25 or 0.59 and 0.60, or
      above 0.99) count as `w`. Every candidate is within one inch of the
      measurement. */
  lemma RoundDifferenceRule(difference: real)
    ensures var r := RoundDifference(difference);
      var w := difference.Floor;
      var f := Frac(difference);
      && (0.25 <= f <= 0.59 <==> r == [w, w + 1])
      && (0.60 <= f <= 0.99 <==> r == [w + 1])
      && (!(0.25 <= f <= 0.59) && !(0.60 <= f <= 0.99) <==> r == [w])
      && (forall i :: 0 <= i < |r| ==> difference - 1.0 < r[i] as real < difference + 1.0)
  {
    var f := Frac(difference);
    if 0.25 <= f <= 0.59 {
      RoundBoth(difference);
    } else if 0.60 <= f <= 0.99 {
      RoundUp(difference);
    } else {
      RoundDown(difference);
    }
  }

  /** A rest of 0.25 to 0.59 inch: both neighbouring whole inches. */
  lemma RoundBoth(difference: real)
    requires 0.25 <= Frac(difference) <= 0.59
    ensures RoundDifference(difference) == [difference.Floor, difference.Floor + 1]
  {
  }

  /** A rest of 0.60 to 0.99 inch: the next whole inch. */
  lemma RoundUp(difference: real)
    requires 0.60 <= Frac(difference) <= 0.99
    ensures RoundDifference(difference) == [difference.Floor + 1]
  {
  }

  /** Any other rest: the whole inches. */
  lemma RoundDown(difference: real)
    requires !(0.25 <= Frac(difference) <= 0.59) && !(0.60 <= Frac(difference) <= 0.99)
    ensures RoundDifference(difference) == [difference.Floor]
  {
  }

  /** The cups of one or two neighbouring carried differences, moved by at
      most one step, are the differences less four plus the steps. */
  lemma CarriedCups(differences: seq<int>, steps: int)
    requires 1 <= |differences| <= 2
    requires forall i :: 0 <= i < |differences| ==> 5 <= differences[i] <= 15
    requires |differences| == 2 ==> differences[1] == differences[0] + 1
    requires -1 <= steps <= 1
    ensures var cups := Dedup(ShiftAll(CupsOfDifferences(differences), steps));
      && |cups| == |differences|
      && (forall i :: 0 <= i < |cups| ==> cups[i] == differences[i] - 4 + steps)
      && (|cups| == 2 ==> cups[1] == cups[0] as int + 1)
      && (forall i :: 0 <= i < |cups| ==> cups[i] <= 12)
  {
    CarriedBase(differences);
    CarriedShift(CupsOfDifferences(differences), differences, steps);
  }

  /** Carried differences all name cups: four inches less each. */
  lemma CarriedBase(differences: seq<int>)
    requires forall i :: 0 <= i < |differences| ==> 5 <= differences[i] <= 15
    ensures var base := CupsOfDifferences(differences);
      |base| == |differences| && forall i :: 0 <= i < |base| ==> base[i] == differences[i] - 4
  {
  }

  /** Shifting the cups of carried differences by at most one step. */
  lemma CarriedShift(base: seq<Cup>, differences: seq<int>, steps: int)
    requires 1 <= |differences| <= 2
    requires |base| == |differences|
    requires forall i :: 0 <= i < |base| ==> base[i] == differences[i] - 4
    requires forall i :: 0 <= i < |differences| ==> 5 <= differences[i] <= 15
    requires |differences| == 2 ==> differences[1] == differences[0] + 1
    requires -1 <= steps <= 1
    ensures var cups := Dedup(ShiftAll(base, steps));
      && |cups| == |differences|
      && (forall i :: 0 <= i < |cups| ==> cups[i] == differences[i] - 4 + steps)
      && (|cups| == 2 ==> cups[1] == cups[0] as int + 1)
      && (forall i :: 0 <= i < |cups| ==> cups[i] <= 12)
  {
    ShiftWithinScale(base, steps);
    var shifted := ShiftAll(base, steps);
    assert forall i :: 0 <= i < |shifted| ==> shifted[i] == differences[i] - 4 + steps;
    assert forall i :: 0 <= i < |shifted| ==> shifted[i] <= 12;
    assert |shifted| == 2 ==> shifted[1] == shifted[0] as int + 1;
    assert Dedup(shifted) == shifted;
  }

  /** Moving cups DD..K one step at most is never cut short by an end of the
      scale (DD..K moved one step stays within D..KK), and moves neighbouring
      cups to neighbouring cups. */
  lemma ShiftWithinScale(base: seq<Cup>, steps: int)
    requires -1 <= steps <= 1
    requires forall i :: 0 <= i < |base| ==> 1 <= base[i] <= 11
    requires |base| == 2 ==> base[1] == base[0] as int + 1
    requires |base| <= 2
    ensures forall i :: 0 <= i < |base| ==> ShiftAll(base, steps)[i] == base[i] + steps
    ensures NoDuplicates(ShiftAll(base, steps))
  {
  }

  /** The sister-size cup lists of the program, by band. */
  const SisterSizeCups26: seq<string> := ["F", "FF", "G", "GG", "H", "HH", "J", "JJ", "K", "KK", "L"]
  const SisterSizeCups28: seq<string> := ["E", "F", "FF", "G", "GG", "H", "HH", "J", "JJ", "K", "KK"]
  const SisterSizeCups42: seq<string> := ["D", "DD", "E", "F", "FF", "G", "GG", "H", "HH", "J", "JJ"]

  /** The sister-size lists are ranges of the scale: F..L, E..KK and D..JJ. */
  lemma SisterListsAreRanges(c: Cup)
    ensures Label(c) in SisterSizeCups26 <==> 3 <= c
    ensures Label(c) in SisterSizeCups28 <==> 2 <= c <= 12
    ensures Label(c) in SisterSizeCups42 <==> c <= 10
  {
    if c == 0 {} else if c == 1 {} else if c == 2 {} else if c == 3 {}
    else if c == 4 {} else if c == 5 {} else if c == 6 {} else if c == 7 {}
    else if c == 8 {} else if c == 9 {} else if c == 10 {} else if c == 11 {}
    else if c == 12 {} else {}
  }

  /** Some cup of the list has a letter in `letters`. */
  predicate SomeCupIn(cups: seq<Cup>, letters: seq<string>) {
    exists i :: 0 <= i < |cups| && Label(cups[i]) in letters
  }

  /** Some cup of the list lies between positions `lo` and `hi` of the scale. */
  predicate SomeCupBetween(cups: seq<Cup>, lo: int, hi: int) {
    exists i :: 0 <= i < |cups| && lo <= cups[i] <= hi
  }

  /** The sister size offered at the edges of the band range: band 26 with a
      cup from F up moves to band 30 two cups down, band 28 with a cup from E
      to KK to band 30 one cup down, band 42 with a cup up to JJ to band 40
      one cup up. */
  function Sister(band: int, cups: seq<Cup>): (r: Option<Size>)
    ensures r.Some? <==>
              || (band == 26 && SomeCupBetween(cups, 3, 13))
              || (band == 28 && SomeCupBetween(cups, 2, 12))
              || (band == 42 && SomeCupBetween(cups, 0, 10))
    ensures r.Some? && band == 26 ==> r.value == Size(30, ShiftAll(cups, -2))
    ensures r.Some? && band == 28 ==> r.value == Size(30, ShiftAll(cups, -1))
    ensures r.Some? && band == 42 ==> r.value == Size(40, ShiftAll(cups, 1))
  {
    forall c: Cup
      ensures (Label(c) in SisterSizeCups26 <==> 3 <= c)
           && (Label(c) in SisterSizeCups28 <==> 2 <= c <= 12)
           && (Label(c) in SisterSizeCups42 <==> c <= 10)
    {
      SisterListsAreRanges(c);
    }
    var isSisterSizeCase :=
      || (band == 26 && SomeCupIn(cups, SisterSizeCups26))
      || (band == 28 && SomeCupIn(cups, SisterSizeCups28))
      || (band == 42 && SomeCupIn(cups, SisterSizeCups42));
    if !isSisterSizeCase then None
    else
      var sisterBand := if band == 26 then 30 else if band == 28 then 30 else 40;
      var sisterCups := ShiftAll(cups, if band == 26 then -2 else if band == 28 then -1 else 1);
      if |sisterCups| > 0 then Some(Size(sisterBand, sisterCups)) else None
  }

  /** The relaxed-fit trigger: the two band estimates differ, or either
      rounded measurement (SU, TU + 2) has an even whole part with 0.01 to
      0.50 inch left over. */
  predicate RelaxedTrigger(su: real, tu: real, bandA: int, bandB: int) {
    || bandA != bandB
    || (IsEven(su.Floor) && 0.01 <= Frac(su) <= 0.50)
    || (IsEven((tu + 2.0).Floor) && 0.01 <= Frac(tu + 2.0) <= 0.50)
  }

  /** Both underband measurements have an odd whole part. */
  predicate BothOdd(su: real, tu: real) {
    !IsEven(su.Floor) && !IsEven(tu.Floor)
  }

  /** Testing TU or TU + 2 for an odd whole part comes to the same thing. */
  lemma BothOddShifted(su: real, tu: real)
    ensures BothOdd(su, tu) <==> !IsEven(su.Floor) && !IsEven((tu + 2.0).Floor)
  {
    assert (tu + 2.0).Floor == tu.Floor + 2;
  }

  /** The relaxed fit: the larger band estimate when the estimates differ,
      else one band up; one cup down either way; no band above 44. */
  function Relaxed(su: real, tu: real, bandA: int, bandB: int, cups: seq<Cup>): (r: Option<Size>)
    ensures r.Some? <==> RelaxedTrigger(su, tu, bandA, bandB) && !BothOdd(su, tu) && |cups| > 0
                         && (if bandA != bandB then Max(bandA, bandB) else bandA + 2) <= 44
    ensures r.Some? && bandA != bandB ==> r.value.band == Max(bandA, bandB) > Min(bandA, bandB)
    ensures r.Some? && bandA == bandB ==> r.value.band == bandA + 2
    ensures r.Some? ==> r.value.cups == ShiftAll(cups, -1)
  {
    var bandSize := Min(bandA, bandB);
    var biggerBandSize := Max(bandA, bandB);
    if RelaxedTrigger(su, tu, bandA, bandB) && !BothOdd(su, tu) then
      var relaxedBand := if bandA != bandB then biggerBandSize else bandSize + 2;
      var relaxedCups := ShiftAll(cups, -1);
      if |relaxedCups| > 0 && relaxedBand <= 44 then Some(Size(relaxedBand, relaxedCups)) else None
    else None
  }

  /** The firm-fit trigger: SU exceeds TU by more than three inches, or the band is 38 or more. */
  predicate FirmTrigger(su: real, tu: real, band: int) {
    su - tu > 3.0 || band >= 38
  }

  /** The firm fit: one band down and one cup up, never below band 26. */
  function Firm(su: real, tu: real, band: int, cups: seq<Cup>): (r: Option<Size>)
    ensures r.Some? <==> FirmTrigger(su, tu, band) && band - 2 >= 26 && |cups| > 0
    ensures r.Some? ==> r.value == Size(band - 2, ShiftAll(cups, 1))
  {
    if FirmTrigger(su, tu, band) && band >= 26 then
      var firmBand := band - 2;
      var firmCups := ShiftAll(cups, 1);
      if |firmCups| > 0 && firmBand >= 26 then Some(Size(firmBand, firmCups)) else None
    else None
  }

  /** A carried main size: an even band from 26 to 40 and one cup or two
      neighbouring cups between D and KK. */
  predicate WellFormedMain(s: Size) {
    && IsEven(s.band)
    && 26 <= s.band <= 40
    && 1 <= |s.cups| <= 2
    && (|s.cups| == 2 ==> s.cups[1] == s.cups[0] as int + 1)
    && forall i :: 0 <= i < |s.cups| ==> s.cups[i] <= 12
  }

  /** Method A of the band: the snug underband, rounded. */
  function BandA(m: Measurements): int {
    RoundBand(m.snugUnderband)
  }

  /** Method B of the band: the tight underband plus two inches, rounded. */
  function BandB(m: Measurements): int {
    RoundBand(m.tightUnderband + 2.0)
  }

  /** Within the carried underband range both band estimates, and so the
      band, lie between 26 and 40. */
  lemma CarriedBandRange(m: Measurements)
    requires BandsCarried(m)
    ensures 26 <= BandA(m) <= 40
    ensures 26 <= BandB(m) <= 40
  {
  }

  /** calculateBraSize: the checks for missing and out-of-range
      measurements, then the recommendation. */
  function Calculate(m: Measurements): (r: SizeResult)
    ensures r.Error? ==> r.message == IncompleteMessage || r.message == NotCarriedMessage
    ensures r.Sized? ==> WellFormedMain(r.main)
  {
    if !Complete(m) then Error(IncompleteMessage)
    else if !BandsCarried(m) then Error(NotCarriedMessage)
    else if !CupCarried(m) then Error(NotCarriedMessage)
    else Recommend(m)
  }

  /** The main size and the suggestions for carried measurements: the
      smaller band estimate with the main cups, and the sister, relaxed and
      firm suggestions derived from them. */
  function Recommend(m: Measurements): (r: SizeResult)
    requires Complete(m) && BandsCarried(m) && CupCarried(m)
    ensures r.Error? ==> r.message == NotCarriedMessage
    ensures r.Sized? ==> WellFormedMain(r.main)
  {
    var su := m.snugUnderband;
    var tu := m.tightUnderband;
    var bandA := BandA(m);
    var bandB := BandB(m);
    var bandSize := Min(bandA, bandB);
    CarriedBandRange(m);
    var cups := MainCups(CupDifference(m), m.breastSpace);
    MainCupsCarried(CupDifference(m), m.breastSpace);
    if |cups| == 0 then Error(NotCarriedMessage)
    else
      Sized(Size(bandSize, cups),
            Sister(bandSize, cups),
            Relaxed(su, tu, bandA, bandB, cups),
            Firm(su, tu, bandSize, cups))
  }

  /** Which results are errors: a missing measurement gives only the
      incomplete message; with all four given, an underband or a cup
      difference outside the stocked range gives only the not-carried
      message; every other input is sized (no carried input runs out of cups). */
  lemma CalculateOutcome(m: Measurements)
    ensures Calculate(m) == Error(IncompleteMessage) <==> !Complete(m)
    ensures Calculate(m) == Error(NotCarriedMessage) <==> Complete(m) && !(BandsCarried(m) && CupCarried(m))
    ensures Calculate(m).Sized? <==> Complete(m) && BandsCarried(m) && CupCarried(m)
  {
    assert IncompleteMessage != NotCarriedMessage by {
      assert |IncompleteMessage| != |NotCarriedMessage|;
    }
  }

  /** A sized result is the recommendation for carried measurements. */
  lemma SizedParts(m: Measurements)
    requires Calculate(m).Sized?
    ensures Complete(m) && BandsCarried(m) && CupCarried(m)
    ensures Calculate(m) == Recommend(m)
  {
  }

  /** The main size of a recommendation: the smaller band estimate and the main cups. */
  lemma RecommendMain(m: Measurements)
    requires Complete(m) && BandsCarried(m) && CupCarried(m)
    ensures Recommend(m).Sized?
    ensures Recommend(m).main
         == Size(Min(BandA(m), BandB(m)),
                 MainCups(CupDifference(m), m.breastSpace))
  {
  }

  /** The suggestions of a recommendation, derived from its main size. */
  lemma RecommendSuggestions(m: Measurements)
    requires Complete(m) && BandsCarried(m) && CupCarried(m)
    ensures var r := Recommend(m);
      var su := m.snugUnderband;
      var tu := m.tightUnderband;
      && r.Sized?
      && r.sister == Sister(r.main.band, r.main.cups)
      && r.relaxed == Relaxed(su, tu, BandA(m), BandB(m), r.main.cups)
      && r.firm == Firm(su, tu, r.main.band, r.main.cups)
  {
  }

  /** The main band is the smaller of the two estimates (SU, and TU + 2, each
      rounded to an even band); it lies between 26 and 40. */
  lemma MainBand(m: Measurements)
    requires Calculate(m).Sized?
    ensures var band := Calculate(m).main.band;
      && band == Min(BandA(m), BandB(m))
      && band <= BandA(m)
      && band <= BandB(m)
      && IsEven(band)
      && 26 <= band <= 40
  {
    SizedParts(m);
    CarriedBandRange(m);
  }

  /** The cup-difference rounding rule with the spacing move, for one carried difference. */
  lemma CupRule(difference: real, space: string)
    requires 5.0 <= difference <= 15.0
    ensures var cups := MainCups(difference, space);
      var w := difference.Floor;
      var f := Frac(difference);
      var k := SpacingSteps(SpacingOf(space));
      && (0.25 <= f <= 0.59 ==> cups == [w - 4 + k, w - 3 + k])
      && (0.60 <= f <= 0.99 ==> cups == [w - 3 + k])
      && (!(0.25 <= f <= 0.59) && !(0.60 <= f <= 0.99) ==> cups == [w - 4 + k])
  {
    var f := Frac(difference);
    if 0.25 <= f <= 0.59 {
      CupRuleBoth(difference, space);
    } else if 0.60 <= f <= 0.99 {
      CupRuleUp(difference, space);
    } else {
      CupRuleDown(difference, space);
    }
  }

  /** One rounded difference gives one main cup: four less, moved by the spacing. */
  lemma OneCupOfRounded(difference: real, space: string, d: int)
    requires 5.0 <= difference <= 15.0
    requires RoundDifference(difference) == [d]
    ensures MainCups(difference, space) == [d - 4 + SpacingSteps(SpacingOf(space))]
  {
    var cups := MainCups(difference, space);
    assert cups[0] == d - 4 + SpacingSteps(SpacingOf(space));
  }

  /** Two rounded differences give two main cups. */
  lemma TwoCupsOfRounded(difference: real, space: string, d: int)
    requires 5.0 <= difference <= 15.0
    requires RoundDifference(difference) == [d, d + 1]
    ensures MainCups(difference, space) == [d - 4 + SpacingSteps(SpacingOf(space)), d - 3 + SpacingSteps(SpacingOf(space))]
  {
    var cups := MainCups(difference, space);
    assert cups[0] == d - 4 + SpacingSteps(SpacingOf(space));
    assert cups[1] == d - 3 + SpacingSteps(SpacingOf(space));
  }

  /** From 0.25 to 0.59 inch left over: both neighbouring cups. */
  lemma CupRuleBoth(difference: real, space: string)
    requires 5.0 <= difference <= 15.0
    requires 0.25 <= Frac(difference) <= 0.59
    ensures MainCups(difference, space)
         == [difference.Floor - 4 + SpacingSteps(SpacingOf(space)), difference.Floor - 3 + SpacingSteps(SpacingOf(space))]
  {
    RoundBoth(difference);
    TwoCupsOfRounded(difference, space, difference.Floor);
  }

  /** From 0.60 to 0.99 inch left over: the cup of the next inch. */
  lemma CupRuleUp(difference: real, space: string)
    requires 5.0 <= difference <= 15.0
    requires 0.60 <= Frac(difference) <= 0.99
    ensures MainCups(difference, space) == [difference.Floor - 3 + SpacingSteps(SpacingOf(space))]
  {
    RoundUp(difference);
    OneCupOfRounded(difference, space, difference.Floor + 1);
  }

  /** Any other leftover: the cup of the whole inches. */
  lemma CupRuleDown(difference: real, space: string)
    requires 5.0 <= difference <= 15.0
    requires !(0.25 <= Frac(difference) <= 0.59) && !(0.60 <= Frac(difference) <= 0.99)
    ensures MainCups(difference, space) == [difference.Floor - 4 + SpacingSteps(SpacingOf(space))]
  {
    RoundDown(difference);
    OneCupOfRounded(difference, space, difference.Floor);
  }

  /** The main cups follow the cup-difference rounding rule, moved one cup up
      for close-set and one cup down for side-set breasts: with `w` the whole
      inches and `f` the rest of the cup difference, a rest of 0.25 to 0.59
      gives the two cups of `w` and `w + 1`, a rest of 0.60 to 0.99 the cup of
      `w + 1`, any other rest the cup of `w`. */
  lemma MainCupRule(m: Measurements)
    requires Calculate(m).Sized?
    ensures var cups := Calculate(m).main.cups;
      var w := CupDifference(m).Floor;
      var f := Frac(CupDifference(m));
      var k := SpacingSteps(SpacingOf(m.breastSpace));
      && (0.25 <= f <= 0.59 ==> cups == [w - 4 + k, w - 3 + k])
      && (0.60 <= f <= 0.99 ==> cups == [w - 3 + k])
      && (!(0.25 <= f <= 0.59) && !(0.60 <= f <= 0.99) ==> cups == [w - 4 + k])
  {
    MainOf(m);
    CupRuleOf(m, Calculate(m).main.cups);
  }

  /** The main size of a sized result. */
  lemma MainOf(m: Measurements)
    requires Calculate(m).Sized?
    ensures CupCarried(m)
    ensures Calculate(m).main
         == Size(Min(BandA(m), BandB(m)),
                 MainCups(CupDifference(m), m.breastSpace))
  {
    SizedParts(m);
    RecommendMain(m);
  }

  /** `CupRule` for the cup difference of a set of measurements. */
  lemma CupRuleOf(m: Measurements, cups: seq<Cup>)
    requires CupCarried(m)
    requires cups == MainCups(CupDifference(m), m.breastSpace)
    ensures var w := CupDifference(m).Floor;
      var f := Frac(CupDifference(m));
      var k := SpacingSteps(SpacingOf(m.breastSpace));
      && (0.25 <= f <= 0.59 ==> cups == [w - 4 + k, w - 3 + k])
      && (0.60 <= f <= 0.99 ==> cups == [w - 3 + k])
      && (!(0.25 <= f <= 0.59) && !(0.60 <= f <= 0.99) ==> cups == [w - 4 + k])
  {
    CupRule(CupDifference(m), m.breastSpace);
  }

  /** A sister size is offered exactly at band 26 with a cup from F up (band
      30, two cups down) and at band 28 with a cup from E to KK (band 30, one
      cup down). The program's band-42 rule never applies: the band is at most 40. */
  lemma SisterRule(m: Measurements)
    requires Calculate(m).Sized?
    ensures var r := Calculate(m);
      var band := r.main.band;
      var cups := r.main.cups;
      && (r.sister.Some? <==> (band == 26 && SomeCupBetween(cups, 3, 13)) || (band == 28 && SomeCupBetween(cups, 2, 12)))
      && (r.sister.Some? ==> r.sister.value == Size(30, ShiftAll(cups, if band == 26 then -2 else -1)))
  {
    SizedParts(m);
    MainBand(m);
  }

  /** A relaxed fit is offered exactly when the relaxed-fit trigger holds and
      SU and TU do not both have an odd whole part; its band is the larger
      estimate when the estimates differ, else one band up, and its cups are
      one step down. The 44 band limit never suppresses it. */
  lemma RelaxedRule(m: Measurements)
    requires Calculate(m).Sized?
    ensures var r := Calculate(m);
      var su := m.snugUnderband;
      var tu := m.tightUnderband;
      var a := BandA(m);
      var b := BandB(m);
      && (r.relaxed.Some? <==> RelaxedTrigger(su, tu, a, b) && !BothOdd(su, tu))
      && (r.relaxed.Some? ==>
            r.relaxed.value == Size(if a != b then Max(a, b) else r.main.band + 2, ShiftAll(r.main.cups, -1)))
  {
    SuggestionsOf(m);
    var r := Calculate(m);
    RelaxedOf(m.snugUnderband, m.tightUnderband, BandA(m), BandB(m), r.main, r.relaxed);
  }

  /** The suggestions of a sized result, derived from its main size. */
  lemma SuggestionsOf(m: Measurements)
    requires Calculate(m).Sized?
    ensures var r := Calculate(m);
      var su := m.snugUnderband;
      var tu := m.tightUnderband;
      && BandsCarried(m)
      && 26 <= BandA(m) <= 40 && 26 <= BandB(m) <= 40
      && r.main.band == Min(BandA(m), BandB(m))
      && |r.main.cups| > 0
      && r.sister == Sister(r.main.band, r.main.cups)
      && r.relaxed == Relaxed(su, tu, BandA(m), BandB(m), r.main.cups)
      && r.firm == Firm(su, tu, r.main.band, r.main.cups)
  {
    SizedParts(m);
    RecommendMain(m);
    RecommendSuggestions(m);
    CarriedBandRange(m);
  }

  /** `RelaxedRule` for given underbands and main size. */
  lemma RelaxedOf(su: real, tu: real, a: int, b: int, main: Size, relaxed: Option<Size>)
    requires 26 <= a <= 40 && 26 <= b <= 40
    requires main.band == Min(a, b)
    requires |main.cups| > 0
    requires relaxed == Relaxed(su, tu, a, b, main.cups)
    ensures && (relaxed.Some? <==> RelaxedTrigger(su, tu, a, b) && !BothOdd(su, tu))
      && (relaxed.Some? ==>
            relaxed.value == Size(if a != b then Max(a, b) else main.band + 2, ShiftAll(main.cups, -1)))
  {
  }

  /** A firm fit is offered exactly when the firm-fit trigger holds and the
      band is at least 28; it is one band down and one cup up. */
  lemma FirmRule(m: Measurements)
    requires Calculate(m).Sized?
    ensures var r := Calculate(m);
      && (r.firm.Some? <==> FirmTrigger(m.snugUnderband, m.tightUnderband, r.main.band) && r.main.band >= 28)
      && (r.firm.Some? ==> r.firm.value == Size(r.main.band - 2, ShiftAll(r.main.cups, 1)))
  {
    SizedParts(m);
  }

  /** Every suggestion lists as many cups as the main size: the moved cups
      are never filtered out, nor de-duplicated. */
  lemma SuggestionsKeepCupCount(m: Measurements)
    requires Calculate(m).Sized?
    ensures var r := Calculate(m);
      && (r.sister.Some? ==> |r.sister.value.cups| == |r.main.cups|)
      && (r.relaxed.Some? ==> |r.relaxed.value.cups| == |r.main.cups|)
      && (r.firm.Some? ==> |r.firm.value.cups| == |r.main.cups|)
  {
    SizedParts(m);
  }

  /** A carried result put together from its parts: the band estimates
      and the main cups decide the main size and all three suggestions. */
  lemma Assembly(m: Measurements, a: int, b: int, cups: seq<Cup>)
    requires Complete(m) && BandsCarried(m) && CupCarried(m)
    requires BandA(m) == a && BandB(m) == b
    requires MainCups(CupDifference(m), m.breastSpace) == cups
    ensures Calculate(m)
         == Sized(Size(Min(a, b), cups),
                  Sister(Min(a, b), cups),
                  Relaxed(m.snugUnderband, m.tightUnderband, a, b, cups),
                  Firm(m.snugUnderband, m.tightUnderband, Min(a, b), cups))
  {
    RecommendMain(m);
    RecommendSuggestions(m);
  }

  /** Side-set breasts with a 5.3 inch difference get "30 D/DD"; the relaxed
      fit moves both cups down to D and repeats it: "32 D/D". */
  lemma RelaxedFitRepeatsCup()
    ensures Calculate(Measurements(30.3, 28.3, 35.6, 35.6, "SS"))
         == Sized(Size(30, [0, 1]), None, Some(Size(32, [0, 0])), None)
  {
    var m := Measurements(30.3, 28.3, 35.6, 35.6, "SS");
    RelaxedFitRepeatsCupMain();
    RelaxedFitRepeatsCupCups();
    Assembly(m, 30, 30, [0, 1]);
    RelaxedFitRepeatsCupSuggestions();
  }

  lemma RelaxedFitRepeatsCupMain()
    ensures var m := Measurements(30.3, 28.3, 35.6, 35.6, "SS");
      && CupDifference(m) == 5.3
      && BandA(m) == 30 && BandB(m) == 30
  {
  }

  lemma RelaxedFitRepeatsCupCups()
    ensures MainCups(5.3, "SS") == [0, 1]
  {
    SpacingAnswers();
    assert Frac(5.3) == 0.3;
    CupRuleBoth(5.3, "SS");
  }

  lemma RelaxedFitRepeatsCupSuggestions()
    ensures Sister(30, [0, 1]) == None
    ensures Relaxed(30.3, 28.3, 30, 30, [0, 1]) == Some(Size(32, [0, 0]))
    ensures Firm(30.3, 28.3, 30, [0, 1]) == None
  {
    var cups: seq<Cup> := [0, 1];
    assert ShiftAll(cups, -1) == [0, 0];
  }

  /** SU 32, TU 28, overbusts 37 and 39: "30 E", with "32 DD" for a relaxed
      and "28 F" for a firm fit. */
  lemma ExampleAverage()
    ensures Calculate(Measurements(32.0, 28.0, 37.0, 39.0, ""))
         == Sized(Size(30, [2]), None, Some(Size(32, [1])), Some(Size(28, [3])))
  {
    var m := Measurements(32.0, 28.0, 37.0, 39.0, "");
    ExampleAverageMain();
    SixInchCup();
    Assembly(m, 32, 30, [2]);
    ExampleAverageSuggestions();
  }

  lemma ExampleAverageMain()
    ensures var m := Measurements(32.0, 28.0, 37.0, 39.0, "");
      && CupDifference(m) == 6.0
      && BandA(m) == 32 && BandB(m) == 30
  {
  }

  /** A six-inch difference with average spacing gives cup E. */
  lemma SixInchCup()
    ensures MainCups(6.0, "") == [2]
  {
    SpacingAnswers();
    assert Frac(6.0) == 0.0;
    CupRuleDown(6.0, "");
  }

  lemma ExampleAverageSuggestions()
    ensures Sister(30, [2]) == None
    ensures Relaxed(32.0, 28.0, 32, 30, [2]) == Some(Size(32, [1]))
    ensures Firm(32.0, 28.0, 30, [2]) == Some(Size(28, [3]))
  {
    var cups: seq<Cup> := [2];
    assert ShiftAll(cups, -1) == [1];
    assert ShiftAll(cups, 1) == [3];
  }

  /** The smallest carried underbands, SU 25 and TU 23, with a 6 inch
      difference: "26 E" and nothing else, since E is not on the band-26
      sister list (which starts at F). */
  lemma ExampleSmallestBand()
    ensures Calculate(Measurements(25.0, 23.0, 30.0, 32.0, ""))
         == Sized(Size(26, [2]), None, None, None)
  {
    var m := Measurements(25.0, 23.0, 30.0, 32.0, "");
    ExampleSmallestBandMain();
    SixInchCup();
    Assembly(m, 26, 26, [2]);
    ExampleSmallestBandSuggestions();
  }

  lemma ExampleSmallestBandMain()
    ensures var m := Measurements(25.0, 23.0, 30.0, 32.0, "");
      && CupDifference(m) == 6.0
      && BandA(m) == 26 && BandB(m) == 26
  {
  }

  lemma ExampleSmallestBandSuggestions()
    ensures Sister(26, [2]) == None
    ensures Relaxed(25.0, 23.0, 26, 26, [2]) == None
    ensures Firm(25.0, 23.0, 26, [2]) == None
  {
    var cups: seq<Cup> := [2];
    assert !SomeCupBetween(cups, 3, 13);
  }

  /** Sister, relaxed and firm suggestions can all be offered at once:
      "28 F" with sister size "30 E", relaxed fit "30 E" and firm fit "26 FF". */
  lemma AllSuggestionsTogether()
    ensures Calculate(Measurements(28.6, 25.5, 35.6, 35.6, ""))
         == Sized(Size(28, [3]), Some(Size(30, [2])), Some(Size(30, [2])), Some(Size(26, [4])))
  {
    var m := Measurements(28.6, 25.5, 35.6, 35.6, "");
    AllSuggestionsTogetherMain();
    AllSuggestionsTogetherCups();
    Assembly(m, 30, 28, [3]);
    AllSuggestionsTogetherSuggestions();
  }

  lemma AllSuggestionsTogetherMain()
    ensures var m := Measurements(28.6, 25.5, 35.6, 35.6, "");
      && CupDifference(m) == 7.0
      && BandA(m) == 30 && BandB(m) == 28
  {
  }

  lemma AllSuggestionsTogetherCups()
    ensures MainCups(7.0, "") == [3]
  {
    SpacingAnswers();
    assert Frac(7.0) == 0.0;
    CupRuleDown(7.0, "");
  }

  lemma AllSuggestionsTogetherSuggestions()
    ensures Sister(28, [3]) == Some(Size(30, [2]))
    ensures Relaxed(28.6, 25.5, 30, 28, [3]) == Some(Size(30, [2]))
    ensures Firm(28.6, 25.5, 28, [3]) == Some(Size(26, [4]))
  {
    var cups: seq<Cup> := [3];
    assert 2 <= cups[0] <= 12;
    assert ShiftAll(cups, -1) == [2];
    assert ShiftAll(cups, 1) == [4];
  }
}

=== FILE: cups.dfy ===
/** The cup scale: fourteen letters, D to L, indexed 0..13. A cup index `c`
    stands for an overbust-minus-underband difference of `c + 4` inches. The
    calculator works on indices; `GetCupSize` and `AdjustCupSize` are the
    letter-level operations of the program, proved to agree with the index
    arithmetic. */
module Cups {
  import opened Seqs

  /** The letters in scale order. */
  const Scale: seq<string> := ["D", "DD", "E", "F", "FF", "G", "GG", "H", "HH", "J", "JJ", "K", "KK", "L"]

  /** A position on the scale. */
  type Cup = c: int | 0 <= c < 14

  /** The letter of a cup. */
  function Label(c: Cup): string {
    Scale[c]
  }

  /** The cup a letter names, or -1 for a string that is not on the scale. */
  function LabelIndex(letter: string): (r: int)
    ensures -1 <= r < 14
  {
    if letter == "D" then 0
    else if letter == "DD" then 1
    else if letter == "E" then 2
    else if letter == "F" then 3
    else if letter == "FF" then 4
    else if letter == "G" then 5
    else if letter == "GG" then 6
    else if letter == "H" then 7
    else if letter == "HH" then 8
    else if letter == "J" then 9
    else if letter == "JJ" then 10
    else if letter == "K" then 11
    else if letter == "KK" then 12
    else if letter == "L" then 13
    else -1
  }

  /** Every letter names exactly one cup. */
  lemma LabelIndexInverts(c: Cup)
    ensures LabelIndex(Label(c)) == c
  {
    if c == 0 {} else if c == 1 {} else if c == 2 {} else if c == 3 {}
    else if c == 4 {} else if c == 5 {} else if c == 6 {} else if c == 7 {}
    else if c == 8 {} else if c == 9 {} else if c == 10 {} else if c == 11 {}
    else if c == 12 {} else {}
  }

  /** The letters of the scale are pairwise different. */
  lemma ScaleDistinct()
    ensures NoDuplicates(Scale)
  {
    forall i, j | 0 <= i < j < |Scale|
      ensures Scale[i] != Scale[j]
    {
      LabelIndexInverts(i);
      LabelIndexInverts(j);
    }
  }

  /** The difference-to-letter table of the program. */
  const CupMap: map<int, string> := map[
    4 := "D", 5 := "DD", 6 := "E", 7 := "F", 8 := "FF", 9 := "G", 10 := "GG",
    11 := "H", 12 := "HH", 13 := "J", 14 := "JJ", 15 := "K", 16 := "KK", 17 := "L"]

  /** getCupSize: the letter for a whole-inch difference, or the empty string. */
  function GetCupSize(difference: int): string {
    if difference in CupMap then CupMap[difference] else ""
  }

  /** The table is the scale read from a difference of four inches onwards,
      and names nothing outside 4..17. */
  lemma GetCupSizeIsScale(difference: int)
    ensures 4 <= difference <= 17 ==> GetCupSize(difference) == Label(difference - 4)
    ensures !(4 <= difference <= 17) ==> GetCupSize(difference) == ""
  {
    if 4 <= difference <= 17 {
      var d := difference;
      if d == 4 {} else if d == 5 {} else if d == 6 {} else if d == 7 {}
      else if d == 8 {} else if d == 9 {} else if d == 10 {} else if d == 11 {}
      else if d == 12 {} else if d == 13 {} else if d == 14 {} else if d == 15 {}
      else if d == 16 {} else {}
    }
  }

  /** The cup for a whole-inch difference, when there is one. */
  function CupOfDifference(difference: int): (r: Option<Cup>)
    ensures r.Some? <==> GetCupSize(difference) != ""
    ensures r.Some? ==> Label(r.value) == GetCupSize(difference)
  {
    GetCupSizeIsScale(difference);
    if 4 <= difference <= 17 then Some(difference - 4) else None
  }

  /** Clamps a position to the scale. */
  function Clamp(i: int): (c: Cup)
    ensures 0 <= i < 14 ==> c == i
    ensures i < 0 ==> c == 0
    ensures 14 <= i ==> c == 13
  {
    if i < 0 then 0 else if i > 13 then 13 else i
  }

  /** Moves a cup `steps` steps along the scale, stopping at D and at L. */
  function Shift(c: Cup, steps: int): Cup {
    Clamp(c + steps)
  }

  /** adjustCupSize: moves a letter along the scale with clamping; a string
      that is not on the scale comes back unchanged. */
  function AdjustCupSize(cupSize: string, adjustment: int): string {
    var index := IndexOf(Scale, cupSize);
    if index == -1 then cupSize
    else Scale[Max(0, Min(|Scale| - 1, index + adjustment))]
  }

  function Min(a: int, b: int): int { if a <= b then a else b }
  function Max(a: int, b: int): int { if a >= b then a else b }

  /** Adjusting a letter is shifting its cup; anything off the scale is left alone. */
  lemma AdjustCupSizeIsShift(c: Cup, adjustment: int, other: string)
    requires other !in Scale
    ensures AdjustCupSize(Label(c), adjustment) == Label(Shift(c, adjustment))
    ensures AdjustCupSize(other, adjustment) == other
  {
    ScaleDistinct();
    IndexOfDistinct(Scale, c);
  }

  /** Moving a cup stays on the scale, is exact away from the ends, and never
      overshoots: a shift up never lowers the cup and a shift down never raises it. */
  lemma ShiftBounds(c: Cup, steps: int)
    ensures 0 <= c + steps < 14 ==> Shift(c, steps) == c + steps
    ensures steps >= 0 ==> c <= Shift(c, steps) <= c + steps
    ensures steps <= 0 ==> c + steps <= Shift(c, steps) <= c
  {
  }

  /** Every cup of a list moved the same number of steps. */
  function ShiftAll(cups: seq<Cup>, steps: int): (r: seq<Cup>)
    ensures |r| == |cups|
    ensures forall i :: 0 <= i < |cups| ==> r[i] == Shift(cups[i], steps)
  {
    seq(|cups|, i requires 0 <= i < |cups| => Shift(cups[i], steps))
  }

  /** The letters of a list of cups. */
  function Labels(cups: seq<Cup>): (r: seq<string>)
    ensures |r| == |cups|
    ensures forall i :: 0 <= i < |cups| ==> r[i] == Label(cups[i])
  {
    seq(|cups|, i requires 0 <= i < |cups| => Label(cups[i]))
  }

  /** The letters of a list with a first cup. */
  lemma LabelsCons(c: Cup, cups: seq<Cup>)
    ensures Labels([c] + cups) == [Label(c)] + Labels(cups)
  {
  }

  /** `cup !== ''`: the string is not empty. */
  predicate NamesCup(letter: string) {
    letter != ""
  }

  /** No letter of the scale is empty. */
  lemma LabelNamesCup(c: Cup)
    ensures NamesCup(Label(c))
  {
    LabelIndexInverts(c);
  }

  /** The explicit letter lookup is `cupOrder.indexOf`. */
  lemma LabelIndexIsIndexOf(letter: string)
    ensures LabelIndex(letter) == IndexOf(Scale, letter)
  {
    if letter in Scale {
      var i := IndexOf(Scale, letter);
      LabelIndexInverts(i);
    } else {
      LabelIndexOnScale(letter);
    }
  }

  /** A string with a cup index names that cup's letter. */
  lemma LabelOfIndex(letter: string)
    requires LabelIndex(letter) != -1
    ensures Label(LabelIndex(letter)) == letter
  {
  }

  /** Only letters of the scale have a cup index. */
  lemma LabelIndexOnScale(letter: string)
    ensures LabelIndex(letter) == -1 || letter in Scale
  {
    var c := LabelIndex(letter);
    if c != -1 {
      LabelOfIndex(letter);
      assert Scale[c] == letter;
    }
  }

  /** Adjusting every letter of a cup list and dropping empty strings, as
      the suggestions do, is shifting every cup: the filter never removes a
      letter, since an adjusted letter is always on the scale. */
  lemma AdjustAllIsShiftAll(cups: seq<Cup>, k: int)
    ensures Filter(Map(Labels(cups), s => AdjustCupSize(s, k)), NamesCup) == Labels(ShiftAll(cups, k))
  {
    var adjusted := Map(Labels(cups), s => AdjustCupSize(s, k));
    var shifted := Labels(ShiftAll(cups, k));
    LabelNamesCup(0);
    assert "" !in Scale by {
      forall i | 0 <= i < |Scale|
        ensures Scale[i] != ""
      {
        LabelNamesCup(i);
      }
    }
    forall i | 0 <= i < |cups|
      ensures adjusted[i] == shifted[i] && NamesCup(adjusted[i])
    {
      AdjustCupSizeIsShift(cups[i], k, "");
      LabelNamesCup(Shift(cups[i], k));
    }
    assert adjusted == shifted;
  }
}

=== FILE: display.dfy ===
/** The result record of calculateBraSize as the program writes it: size
    strings such as "30 DD/E" and the advisory messages that go with the
    suggestions. `ParseSize` reads a size string back, so no two sizes are
    written the same way. */
module Display {
  import opened Seqs
  import opened Strings
  import opened Cups
  import opened Calculator

  /** The cup letters of a size, joined by "/" ("DD/E"); one cup is its letter alone. */
  function CupString(cups: seq<Cup>): string {
    Join(Labels(cups), "/")
  }

  /** `${band} ${cups}`. */
  function SizeString(s: Size): string {
    IntToString(s.band) + " " + CupString(s.cups)
  }

  const SisterPrefix: string := "Although we don't carry your exact recommended size yet, a sister size of "
  const SisterSuffix: string := " might work for you!"
  const RelaxedPrefix: string :=
    "Based on your measurements, we recommend that you either use a non-stretch extender for your first few wears as you break in your new bra. Or, you could also choose "
  const RelaxedSuffix: string := " for a more relaxed fit."
  const FirmPrefix: string := "Based on your measurements, you could choose "
  const FirmSuffix: string := " for a more supportive fit."

  /** An advisory message: a fixed text around the size it recommends. */
  function Message(prefix: string, size: string, suffix: string): (r: string)
    ensures |r| == |prefix| + |size| + |suffix|
    ensures r[..|prefix|] == prefix
    ensures r[|prefix|..|prefix| + |size|] == size
    ensures r[|prefix| + |size|..] == suffix
  {
    var r := prefix + size + suffix;
    assert r[..|prefix|] == prefix;
    assert r[|prefix|..|prefix| + |size|] == size;
    r
  }

  /** The object calculateBraSize returns: an error, or the main size with
      each suggestion and its message (null when not offered). */
  datatype QuizResult =
    | ErrorRecord(error: string)
    | SizeRecord(
        mainSize: string,
        sisterSize: Option<string>,
        relaxedFit: Option<string>,
        firmFit: Option<string>,
        sisterSizeMessage: Option<string>,
        relaxedFitMessage: Option<string>,
        firmFitMessage: Option<string>)

  /** A suggestion as a size string, or null. */
  function SizeText(s: Option<Size>): (r: Option<string>)
    ensures r.Some? <==> s.Some?
    ensures s.Some? ==> r.value == SizeString(s.value)
  {
    match s
    case None => None
    case Some(size) => Some(SizeString(size))
  }

  /** The message for a suggestion, or null. */
  function MessageText(prefix: string, s: Option<Size>, suffix: string): (r: Option<string>)
    ensures r.Some? <==> s.Some?
    ensures s.Some? ==> r.value == Message(prefix, SizeString(s.value), suffix)
  {
    match s
    case None => None
    case Some(size) => Some(Message(prefix, SizeString(size), suffix))
  }

  /** The record calculateBraSize returns for a result. */
  function Render(r: SizeResult): (q: QuizResult)
    ensures q.ErrorRecord? <==> r.Error?
    ensures r.Error? ==> q.error == r.message
    ensures r.Sized? ==>
      && q.mainSize == SizeString(r.main)
      && q.sisterSize == SizeText(r.sister)
      && q.relaxedFit == SizeText(r.relaxed)
      && q.firmFit == SizeText(r.firm)
  {
    match r
    case Error(message) => ErrorRecord(message)
    case Sized(main, sister, relaxed, firm) =>
      SizeRecord(
        SizeString(main),
        SizeText(sister), SizeText(relaxed), SizeText(firm),
        MessageText(SisterPrefix, sister, SisterSuffix),
        MessageText(RelaxedPrefix, relaxed, RelaxedSuffix),
        MessageText(FirmPrefix, firm, FirmSuffix))
  }

  /** Every suggestion comes with a message and every message with a
      suggestion; the message names the suggested size at a fixed place. */
  lemma RenderMessages(r: SizeResult)
    requires r.Sized?
    ensures var q := Render(r);
      && (q.sisterSizeMessage.Some? <==> q.sisterSize.Some?)
      && (q.relaxedFitMessage.Some? <==> q.relaxedFit.Some?)
      && (q.firmFitMessage.Some? <==> q.firmFit.Some?)
      && (q.sisterSize.Some? ==>
            q.sisterSizeMessage.value[|SisterPrefix|..|SisterPrefix| + |q.sisterSize.value|] == q.sisterSize.value)
      && (q.relaxedFit.Some? ==>
            q.relaxedFitMessage.value[|RelaxedPrefix|..|RelaxedPrefix| + |q.relaxedFit.value|] == q.relaxedFit.value)
      && (q.firmFit.Some? ==>
            q.firmFitMessage.value[|FirmPrefix|..|FirmPrefix| + |q.firmFit.value|] == q.firmFit.value)
  {
  }

  /** The letters of the scale are upper-case ASCII letters. */
  lemma LabelLetters(c: Cup)
    ensures |Label(c)| >= 1
    ensures forall i :: 0 <= i < |Label(c)| ==> 'A' <= Label(c)[i] <= 'Z'
  {
    if c == 0 {} else if c == 1 {} else if c == 2 {} else if c == 3 {}
    else if c == 4 {} else if c == 5 {} else if c == 6 {} else if c == 7 {}
    else if c == 8 {} else if c == 9 {} else if c == 10 {} else if c == 11 {}
    else if c == 12 {} else {}
  }

  /** Reads a cup string back, or nothing if a part is not a letter of the scale. */
  function ParseCups(parts: seq<string>): (r: Option<seq<Cup>>)
    ensures r.Some? ==> |r.value| == |parts|
    ensures r.Some? ==> forall i :: 0 <= i < |parts| ==> Label(r.value[i]) == parts[i]
    ensures r.None? ==> exists i :: 0 <= i < |parts| && LabelIndex(parts[i]) == -1
    decreases |parts|
  {
    if |parts| == 0 then Some([])
    else
      var c := LabelIndex(parts[0]);
      match ParseCups(parts[1..])
      case None => None
      case Some(rest) =>
        if c == -1 then None
        else
          LabelOfIndex(parts[0]);
          Some([c] + rest)
  }

  /** Reads a size string back: a decimal band, one blank, and one or more
      cup letters separated by "/". */
  function ParseSize(text: string): (r: Option<Size>)
    ensures r.Some? ==> 0 <= r.value.band && 1 <= |r.value.cups|
    ensures r.Some? ==> exists i :: 0 <= i < |text| && text[i] == ' '
  {
    var parts := Split(text, ' ');
    if |parts| != 2 || |parts[0]| == 0 then None
    else if !(forall i :: 0 <= i < |parts[0]| ==> '0' <= parts[0][i] <= '9') then None
    else
      match ParseCups(Split(parts[1], '/'))
      case None => None
      case Some(cups) =>
        if |cups| == 0 then None
        else
          SplitFound(text, ' ');
          Some(Size(DigitsValue(parts[0]), cups))
  }

  /** The cups of a list read back from their letters. */
  lemma {:induction false} ParseCupsLabels(cups: seq<Cup>)
    ensures ParseCups(Labels(cups)) == Some(cups)
    decreases |cups|
  {
    if |cups| > 0 {
      LabelIndexInverts(cups[0]);
      assert Labels(cups)[1..] == Labels(cups[1..]);
      ParseCupsLabels(cups[1..]);
      assert cups == [cups[0]] + cups[1..];
    }
  }

  /** Only upper-case letters and slashes appear in a cup string. */
  lemma CupStringLetters(cups: seq<Cup>)
    ensures forall i :: 0 <= i < |CupString(cups)| ==>
      CupString(cups)[i] == '/' || 'A' <= CupString(cups)[i] <= 'Z'
  {
    var labels := Labels(cups);
    forall i | 0 <= i < |labels|
      ensures forall k :: 0 <= k < |labels[i]| ==> 'A' <= labels[i][k] <= 'Z'
    {
      LabelLetters(cups[i]);
    }
    JoinChars(labels, "/");
  }

  /** Reading a written size gives the size back: the size string is the
      decimal band, a blank and the cup letters, and each part is recovered. */
  lemma SizeStringRoundTrip(s: Size)
    requires 0 <= s.band
    requires 1 <= |s.cups|
    ensures ParseSize(SizeString(s)) == Some(s)
  {
    SizeStringParts(s);
    CupStringParts(s.cups);
    NatToStringRoundTrip(s.band);
    ParseCupsLabels(s.cups);
  }

  /** A size string splits at its blank into the band numeral and the cup string. */
  lemma SizeStringParts(s: Size)
    requires 0 <= s.band
    ensures Split(SizeString(s), ' ') == [IntToString(s.band), CupString(s.cups)]
  {
    var a := IntToString(s.band);
    var b := CupString(s.cups);
    CupStringLetters(s.cups);
    assert ' ' !in a;
    assert ' ' !in b;
    assert Join([a, b], [' ']) == SizeString(s) by {
      assert [a, b][1..] == [b];
    }
    SplitJoin([a, b], ' ');
  }

  /** A cup string splits at its slashes into the letters of the cups. */
  lemma CupStringParts(cups: seq<Cup>)
    requires 1 <= |cups|
    ensures Split(CupString(cups), '/') == Labels(cups)
  {
    forall i | 0 <= i < |Labels(cups)|
      ensures '/' !in Labels(cups)[i]
    {
      LabelLetters(cups[i]);
    }
    SplitJoin(Labels(cups), '/');
  }

  /** Different sizes are written differently. */
  lemma SizeStringInjective(s: Size, t: Size)
    requires 0 <= s.band && 1 <= |s.cups|
    requires 0 <= t.band && 1 <= |t.cups|
    ensures SizeString(s) == SizeString(t) <==> s == t
  {
    SizeStringRoundTrip(s);
    SizeStringRoundTrip(t);
  }

  /** The main size the calculator writes reads back as the size it computed. */
  lemma MainSizeReadsBack(m: Measurements)
    requires Calculate(m).Sized?
    ensures Render(Calculate(m)).mainSize == SizeString(Calculate(m).main)
    ensures ParseSize(Render(Calculate(m)).mainSize) == Some(Calculate(m).main)
  {
    MainBand(m);
    SizeStringRoundTrip(Calculate(m).main);
  }
}

=== FILE: seqs.dfy ===
/** Sequence utilities standing in for the JavaScript array operations the
    size calculator and the contact-tag rewrite use: `indexOf`, `map`,
    `filter`, `includes` and the `[...new Set(xs)]` de-duplication idiom. */
module Seqs {

  /** A value that may be absent (the calculator's `null` suggestions). */
  datatype Option<+T> = None | Some(value: T)

  /** No element occurs twice. */
  predicate NoDuplicates<T(==)>(s: seq<T>) {
    forall i, j :: 0 <= i < j < |s| ==> s[i] != s[j]
  }

  /** `Array.prototype.indexOf`: the first position of `x` in `s`, or -1. */
  function IndexOf<T(==)>(s: seq<T>, x: T): (r: int)
    ensures -1 <= r < |s|
    ensures r == -1 <==> x !in s
    ensures 0 <= r ==> s[r] == x && x !in s[..r]
  {
    if |s| == 0 then -1
    else if s[0] == x then 0
    else
      var k := IndexOf(s[1..], x);
      assert s == [s[0]] + s[1..];
      if k == -1 then -1
      else
        assert s[..k + 1] == [s[0]] + s[1..][..k];
        k + 1
  }

  /** In a sequence without repetitions, `indexOf` finds every element at its own position. */
  lemma IndexOfDistinct<T>(s: seq<T>, i: int)
    requires NoDuplicates(s)
    requires 0 <= i < |s|
    ensures IndexOf(s, s[i]) == i
  {
  }

  /** `Array.prototype.map`. */
  function Map<T, U>(s: seq<T>, f: T -> U): (r: seq<U>)
    ensures |r| == |s|
    ensures forall i :: 0 <= i < |s| ==> r[i] == f(s[i])
  {
    seq(|s|, i requires 0 <= i < |s| => f(s[i]))
  }

  /** `Array.prototype.filter`: the elements satisfying `p`, in their original order. */
  function Filter<T(==,!new)>(s: seq<T>, p: T -> bool): (r: seq<T>)
    ensures |r| <= |s|
    ensures forall x :: x in r <==> x in s && p(x)
    ensures (forall i :: 0 <= i < |s| ==> p(s[i])) ==> r == s
    decreases |s|
  {
    if |s| == 0 then []
    else
      var rest := Filter(s[1..], p);
      assert s == [s[0]] + s[1..];
      if p(s[0]) then [s[0]] + rest else rest
  }

  /** Filtering distributes over concatenation, so the order of what is kept is the order of the input. */
  lemma {:induction false} FilterAppend<T(!new)>(a: seq<T>, b: seq<T>, p: T -> bool)
    ensures Filter(a + b, p) == Filter(a, p) + Filter(b, p)
    decreases |a|
  {
    if |a| == 0 {
      assert a + b == b;
    } else {
      var x := a[0];
      assert a + b == [x] + (a[1..] + b);
      assert a == [x] + a[1..];
      FilterCons(x, a[1..] + b, p);
      FilterCons(x, a[1..], p);
      FilterAppend(a[1..], b, p);
      var front := Filter(a[1..], p);
      var back := Filter(b, p);
      if p(x) {
        AppendAssoc([x], front, back);
      }
    }
  }

  /** Concatenation is associative. */
  lemma AppendAssoc<T>(u: seq<T>, v: seq<T>, w: seq<T>)
    ensures u + (v + w) == (u + v) + w
  {
  }

  /** Filtering a list with a first element. */
  lemma FilterCons<T(!new)>(x: T, s: seq<T>, p: T -> bool)
    ensures Filter([x] + s, p) == if p(x) then [x] + Filter(s, p) else Filter(s, p)
  {
    assert ([x] + s)[1..] == s;
  }

  /** `[...new Set(s)]`: the first occurrence of every element, in order. */
  function Dedup<T(==,!new)>(s: seq<T>): (r: seq<T>)
    ensures forall x :: x in r <==> x in s
    ensures NoDuplicates(r)
    ensures |r| <= |s|
    ensures NoDuplicates(s) ==> r == s
    decreases |s|
  {
    if |s| == 0 then []
    else
      var init := s[..|s| - 1];
      var last := s[|s| - 1];
      var front := Dedup(init);
      assert s == init + [last];
      if last in front then front
      else
        assert NoDuplicates(s) ==> front == init;
        front + [last]
  }

  /** An element of `a` is found in `a + b` where it is found in `a`. */
  lemma IndexOfPrefix<T>(a: seq<T>, b: seq<T>, x: T)
    requires x in a
    ensures IndexOf(a + b, x) == IndexOf(a, x)
  {
    var k := IndexOf(a, x);
    var m := IndexOf(a + b, x);
    assert (a + b)[k] == x;
    assert forall i :: 0 <= i < k ==> (a + b)[i] != x by {
      assert (a + b)[..k] == a[..k];
    }
    assert forall i :: 0 <= i < m ==> (a + b)[i] != x;
  }

  /** An element missing from `a` is found right after it in `a + [x]`. */
  lemma IndexOfAppended<T>(a: seq<T>, x: T)
    requires x !in a
    ensures IndexOf(a + [x], x) == |a|
  {
    assert (a + [x])[|a|] == x;
  }

  /** `[...new Set(s)]` lists the elements in the order of their first
      occurrence in `s`. Together with the contract of `Dedup` this fixes
      the result completely. */
  lemma {:induction false} DedupKeepsOrder<T(!new)>(s: seq<T>)
    ensures forall i, j :: 0 <= i < j < |Dedup(s)| ==> IndexOf(s, Dedup(s)[i]) < IndexOf(s, Dedup(s)[j])
    decreases |s|
  {
    if |s| > 0 {
      var init := s[..|s| - 1];
      var last := s[|s| - 1];
      var front := Dedup(init);
      assert s == init + [last];
      DedupKeepsOrder(init);
      forall x | x in front
        ensures IndexOf(s, x) == IndexOf(init, x) < |init|
      {
        IndexOfPrefix(init, [last], x);
      }
      if last !in front {
        IndexOfAppended(init, last);
        var r := front + [last];
        assert Dedup(s) == r;
        forall i, j | 0 <= i < j < |r|
          ensures IndexOf(s, r[i]) < IndexOf(s, r[j])
        {
          assert r[i] == front[i];
          if j < |front| {
            assert r[j] == front[j];
          }
        }
      }
    }
  }
}

=== FILE: strings.dfy ===
/** The JavaScript string operations the calculator and the tag rewrite rely
    on: `trim`, `split`, `join`, integer-to-decimal conversion, replacing
    runs of white space (`replace(/\s+/g, …)`) and a case-insensitive prefix
    test (`/^…/i`). Strings are sequences of characters. */
module Strings {
  import opened Seqs

  /** The ECMAScript WhiteSpace and LineTerminator characters: what `trim`
      strips and what the regular-expression class `\s` matches. */
  predicate IsWhitespace(c: char) {
    || c == '\t' || c == '\n' || c == '\U{000B}' || c == '\U{000C}' || c == '\r'
    || c == ' ' || c == '\U{00A0}' || c == '\U{1680}'
    || ('\U{2000}' <= c <= '\U{200A}')
    || c == '\U{2028}' || c == '\U{2029}' || c == '\U{202F}' || c == '\U{205F}'
    || c == '\U{3000}' || c == '\U{FEFF}'
  }

  /** Neither end of `s` is white space. */
  predicate Trimmed(s: string) {
    s == [] || (!IsWhitespace(s[0]) && !IsWhitespace(s[|s| - 1]))
  }

  /** Strips the longest white-space prefix. */
  function TrimStart(s: string): (r: string)
    ensures |r| <= |s| && r == s[|s| - |r|..]
    ensures forall i :: 0 <= i < |s| - |r| ==> IsWhitespace(s[i])
    ensures r == [] || !IsWhitespace(r[0])
  {
    if |s| > 0 && IsWhitespace(s[0]) then TrimStart(s[1..]) else s
  }

  /** Strips the longest white-space suffix. */
  function TrimEnd(s: string): (r: string)
    ensures |r| <= |s| && r == s[..|r|]
    ensures forall i :: |r| <= i < |s| ==> IsWhitespace(s[i])
    ensures r == [] || !IsWhitespace(r[|r| - 1])
  {
    if |s| > 0 && IsWhitespace(s[|s| - 1]) then TrimEnd(s[..|s| - 1]) else s
  }

  /** `String.prototype.trim`. */
  function Trim(s: string): (r: string)
    ensures Trimmed(r)
    ensures forall c :: c in r ==> c in s
    ensures Trimmed(s) ==> r == s
  {
    var t := TrimStart(s);
    var r := TrimEnd(t);
    assert forall c :: c in r ==> c in t;
    r
  }

  /** A white-space character in front of a trimmed string is trimmed away again. */
  lemma TrimPadded(c: char, t: string)
    requires IsWhitespace(c)
    requires Trimmed(t)
    ensures Trim([c] + t) == t
  {
    assert ([c] + t)[1..] == t;
  }

  /** `Array.prototype.join`. */
  function Join(parts: seq<string>, sep: string): string
    decreases |parts|
  {
    if |parts| == 0 then ""
    else if |parts| == 1 then parts[0]
    else parts[0] + sep + Join(parts[1..], sep)
  }

  /** Characters put in front of the first part stay in front of the joined string. */
  lemma JoinPrefixFirst(a: string, b: string, rest: seq<string>, sep: string)
    ensures Join([a + b] + rest, sep) == a + Join([b] + rest, sep)
  {
    if |rest| > 0 {
      assert ([a + b] + rest)[1..] == rest;
      assert ([b] + rest)[1..] == rest;
    }
  }

  /** A joined string is made of the characters of the parts and the separator. */
  lemma {:induction false} JoinChars(parts: seq<string>, sep: string)
    ensures forall k :: 0 <= k < |Join(parts, sep)| ==>
      Join(parts, sep)[k] in sep || exists i :: 0 <= i < |parts| && Join(parts, sep)[k] in parts[i]
    decreases |parts|
  {
    if |parts| > 1 {
      JoinChars(parts[1..], sep);
      var rest := Join(parts[1..], sep);
      var s := Join(parts, sep);
      forall k | 0 <= k < |s|
        ensures s[k] in sep || exists i :: 0 <= i < |parts| && s[k] in parts[i]
      {
        if k < |parts[0]| {
          assert s[k] == parts[0][k];
        } else if k < |parts[0]| + |sep| {
          assert s[k] == sep[k - |parts[0]|];
        } else {
          var j := k - |parts[0]| - |sep|;
          assert s[k] == rest[j];
          if rest[j] !in sep {
            var i :| 0 <= i < |parts[1..]| && rest[j] in parts[1..][i];
            assert s[k] in parts[i + 1];
          }
        }
      }
    } else if |parts| == 1 {
      assert forall k :: 0 <= k < |parts[0]| ==> parts[0][k] in parts[0];
    }
  }

  /** A string split into more than one part contains the separator. */
  lemma SplitFound(s: string, sep: char)
    requires |Split(s, sep)| > 1
    ensures exists i :: 0 <= i < |s| && s[i] == sep
  {
    var i := IndexOf(s, sep);
    assert s[i] == sep;
  }

  /** `String.prototype.split` with a one-character separator. Splitting is
      undone by joining with the same separator. */
  function Split(s: string, sep: char): (parts: seq<string>)
    ensures |parts| >= 1
    ensures forall i :: 0 <= i < |parts| ==> sep !in parts[i]
    ensures Join(parts, [sep]) == s
    decreases |s|
  {
    var i := IndexOf(s, sep);
    if i == -1 then [s]
    else
      var rest := Split(s[i + 1..], sep);
      JoinCons(s[..i], rest, sep);
      assert s == s[..i] + [sep] + s[i + 1..];
      [s[..i]] + rest
  }

  /** Joining a part in front of a non-empty list puts the separator between. */
  lemma JoinCons(first: string, rest: seq<string>, sep: char)
    requires |rest| >= 1
    ensures Join([first] + rest, [sep]) == first + [sep] + Join(rest, [sep])
  {
    assert ([first] + rest)[1..] == rest;
  }

  /** Joining is undone by splitting, as long as no part contains the separator. */
  lemma {:induction false} SplitJoin(parts: seq<string>, sep: char)
    requires |parts| >= 1
    requires forall i :: 0 <= i < |parts| ==> sep !in parts[i]
    ensures Split(Join(parts, [sep]), sep) == parts
    decreases |parts|
  {
    if |parts| == 1 {
      assert IndexOf(parts[0], sep) == -1;
    } else {
      JoinFirst(parts, sep);
      SplitFirst(Join(parts, [sep]), |parts[0]|, sep);
      SplitJoin(parts[1..], sep);
      assert parts == [parts[0]] + parts[1..];
    }
  }

  /** A string joined from two or more parts is the first part, the
      separator, and the rest joined. */
  lemma JoinFirst(parts: seq<string>, sep: char)
    requires |parts| >= 2
    requires sep !in parts[0]
    ensures var s, n := Join(parts, [sep]), |parts[0]|;
      && n < |s| && s[n] == sep && sep !in s[..n]
      && s[..n] == parts[0] && s[n + 1..] == Join(parts[1..], [sep])
  {
    var s := Join(parts, [sep]);
    var n := |parts[0]|;
    assert s == parts[0] + [sep] + Join(parts[1..], [sep]);
    assert s[..n] == parts[0];
  }

  /** A string whose first separator is at `n` splits into what comes before
      it and the parts of what comes after it. */
  lemma SplitFirst(s: string, n: int, sep: char)
    requires 0 <= n < |s| && s[n] == sep && sep !in s[..n]
    ensures Split(s, sep) == [s[..n]] + Split(s[n + 1..], sep)
  {
  }

  /** `", "`-joining is `","`-joining after a blank is put in front of every part but the first. */
  lemma {:induction false} JoinCommaSpace(ts: seq<string>)
    requires |ts| >= 1
    ensures Join(ts, ", ") == Join([ts[0]] + Map(ts[1..], Padded), ",")
    decreases |ts|
  {
    if |ts| > 1 {
      var rest := Map(ts[2..], Padded);
      JoinCommaSpace(ts[1..]);
      assert ts[1..][0] == ts[1];
      assert ts[1..][1..] == ts[2..];
      assert Map(ts[1..], Padded) == [" " + ts[1]] + rest;
      JoinPrefixFirst(" ", ts[1], rest, ",");
      assert ([ts[0]] + Map(ts[1..], Padded))[1..] == Map(ts[1..], Padded);
    }
  }

  /** A part as it appears after the first comma of a `", "`-joined list. */
  function Padded(t: string): string {
    " " + t
  }

  /** The decimal digit for `d`. */
  function DigitChar(d: int): (c: char)
    requires 0 <= d < 10
    ensures '0' <= c <= '9'
    ensures c as int - '0' as int == d
  {
    ('0' as int + d) as char
  }

  /** The decimal numeral JavaScript writes for a non-negative integer. */
  function NatToString(n: nat): (r: string)
    ensures |r| >= 1
    ensures forall i :: 0 <= i < |r| ==> '0' <= r[i] <= '9'
    ensures r[0] == '0' <==> n == 0
    ensures |r| > 1 ==> r[0] != '0'
  {
    if n < 10 then [DigitChar(n)] else NatToString(n / 10) + [DigitChar(n % 10)]
  }

  /** The decimal numeral JavaScript writes for an integer (`${n}`) below
      10^21 in magnitude; from there on JavaScript switches to exponent form. */
  function IntToString(n: int): (r: string)
    ensures |r| >= 1
    ensures 0 <= n ==> forall i :: 0 <= i < |r| ==> '0' <= r[i] <= '9'
    ensures 0 <= n ==> r == NatToString(n)
    ensures n < 0 ==> r[0] == '-' && r[1..] == NatToString(-n)
  {
    if n < 0 then "-" + NatToString(-n) else NatToString(n)
  }

  /** Reads a string of decimal digits back as a number. */
  function DigitsValue(s: string): nat
    requires forall i :: 0 <= i < |s| ==> '0' <= s[i] <= '9'
  {
    if |s| == 0 then 0
    else DigitsValue(s[..|s| - 1]) * 10 + (s[|s| - 1] as int - '0' as int)
  }

  /** The numeral of `n` reads back as `n`. */
  lemma {:induction false} NatToStringRoundTrip(n: nat)
    ensures DigitsValue(NatToString(n)) == n
  {
    if n >= 10 {
      var s := NatToString(n);
      assert s[..|s| - 1] == NatToString(n / 10);
      NatToStringRoundTrip(n / 10);
    }
  }

  /** A numeral without leading zeros reads back as a number whose numeral it
      is: `NatToString` writes the one canonical numeral of each number. */
  lemma {:induction false} NatToStringCanonical(s: string)
    requires |s| >= 1
    requires forall i :: 0 <= i < |s| ==> '0' <= s[i] <= '9'
    requires |s| > 1 ==> s[0] != '0'
    ensures NatToString(DigitsValue(s)) == s
    decreases |s|
  {
    var init := s[..|s| - 1];
    var d := s[|s| - 1] as int - '0' as int;
    if |s| == 1 {
      assert DigitsValue(s) == d;
      assert [DigitChar(d)] == s;
    } else {
      DigitsPositive(init);
      NatToStringCanonical(init);
      var v := DigitsValue(init);
      assert DigitsValue(s) == v * 10 + d;
      assert (v * 10 + d) / 10 == v && (v * 10 + d) % 10 == d;
      assert s == init + [DigitChar(d)];
    }
  }

  /** A numeral that does not start with 0 has a positive value. */
  lemma {:induction false} DigitsPositive(s: string)
    requires |s| >= 1
    requires forall i :: 0 <= i < |s| ==> '0' <= s[i] <= '9'
    requires s[0] != '0'
    ensures DigitsValue(s) >= 1
    decreases |s|
  {
    if |s| > 1 {
      DigitsPositive(s[..|s| - 1]);
    }
  }

  /** `replace(/\s+/g, with)`: every maximal run of white space becomes one `with`. */
  function ReplaceWhitespaceRuns(s: string, with: char): (r: string)
    requires !IsWhitespace(with)
    ensures forall i :: 0 <= i < |r| ==> !IsWhitespace(r[i])
    ensures forall c :: c in r && c != with ==> c in s
    ensures (forall i :: 0 <= i < |s| ==> !IsWhitespace(s[i])) ==> r == s
    decreases |s|
  {
    if |s| == 0 then ""
    else if IsWhitespace(s[0]) then [with] + ReplaceWhitespaceRuns(TrimStart(s), with)
    else
      assert s == [s[0]] + s[1..];
      [s[0]] + ReplaceWhitespaceRuns(s[1..], with)
  }

  /** Trimming the front of a white-space run followed by a string that does
      not start with white space leaves that string. */
  lemma {:induction false} TrimStartRun(ws: string, b: string)
    requires forall i :: 0 <= i < |ws| ==> IsWhitespace(ws[i])
    requires b == [] || !IsWhitespace(b[0])
    ensures TrimStart(ws + b) == b
    decreases |ws|
  {
    if |ws| == 0 {
      assert ws + b == b;
    } else {
      assert (ws + b)[0] == ws[0];
      assert (ws + b)[1..] == ws[1..] + b;
      TrimStartRun(ws[1..], b);
    }
  }

  /** A word, a maximal run of white space and the rest: the word is kept
      as it is, the whole run becomes one `with`, and the rest is replaced in
      turn. With the contract of `ReplaceWhitespaceRuns` (a string without
      white space is left alone) this fixes the replacement of every string. */
  lemma ReplaceRun(a: string, ws: string, b: string, with: char)
    requires !IsWhitespace(with)
    requires forall i :: 0 <= i < |a| ==> !IsWhitespace(a[i])
    requires |ws| >= 1 && forall i :: 0 <= i < |ws| ==> IsWhitespace(ws[i])
    requires b == [] || !IsWhitespace(b[0])
    ensures ReplaceWhitespaceRuns(a + ws + b, with) == a + [with] + ReplaceWhitespaceRuns(b, with)
  {
    var tail := ReplaceWhitespaceRuns(b, with);
    AppendAssoc(a, ws, b);
    ReplaceWord(a, ws + b, with);
    ReplaceLeadingRun(ws, b, with);
    AppendAssoc(a, [with], tail);
  }

  /** A word without white space in front is kept as it is. */
  lemma {:induction false} ReplaceWord(a: string, t: string, with: char)
    requires !IsWhitespace(with)
    requires forall i :: 0 <= i < |a| ==> !IsWhitespace(a[i])
    ensures ReplaceWhitespaceRuns(a + t, with) == a + ReplaceWhitespaceRuns(t, with)
    decreases |a|
  {
    if |a| == 0 {
      assert a + t == t;
    } else {
      var x := a[0];
      var rest := a[1..];
      assert a + t == [x] + (rest + t);
      ReplaceWordChar(x, rest + t, with);
      ReplaceWord(rest, t, with);
      AppendAssoc([x], rest, ReplaceWhitespaceRuns(t, with));
      assert [x] + rest == a;
    }
  }

  /** A character that is not white space is kept in front. */
  lemma ReplaceWordChar(x: char, t: string, with: char)
    requires !IsWhitespace(with)
    requires !IsWhitespace(x)
    ensures ReplaceWhitespaceRuns([x] + t, with) == [x] + ReplaceWhitespaceRuns(t, with)
  {
    assert ([x] + t)[1..] == t;
  }

  /** A leading white-space run becomes one `with`. */
  lemma ReplaceLeadingRun(ws: string, b: string, with: char)
    requires !IsWhitespace(with)
    requires |ws| >= 1 && forall i :: 0 <= i < |ws| ==> IsWhitespace(ws[i])
    requires b == [] || !IsWhitespace(b[0])
    ensures ReplaceWhitespaceRuns(ws + b, with) == [with] + ReplaceWhitespaceRuns(b, with)
  {
    assert (ws + b)[0] == ws[0];
    TrimStartRun(ws, b);
  }

  /** Case folding for `/i` matching against an ASCII character: without the
      `u` flag no non-ASCII character canonicalizes to an ASCII one, so for an
      ASCII prefix only the ASCII letters need folding. */
  function AsciiLower(c: char): char {
    if 'A' <= c <= 'Z' then (c as int - 'A' as int + 'a' as int) as char else c
  }

  /** `/^prefix/i.test(s)`, for a prefix of lower-case ASCII characters. For a
      prefix of ASCII characters this is the `/i` test without the `u` flag. */
  predicate StartsWithIgnoreCase(s: string, prefix: string) {
    |prefix| <= |s| && forall i :: 0 <= i < |prefix| ==> AsciiLower(s[i]) == prefix[i]
  }
}

=== FILE: tags.dfy ===
/** The contact-form tags written when the quiz is submitted: the existing
    comma-separated tags lose any earlier "bra-size-…" tag, gain "bra-quiz"
    if it is missing, and end with the size tag of the new main size. */
module Tags {
  import opened Seqs
  import opened Strings
  import opened Calculator
  import opened Display

  const SizeTagPrefix: string := "bra-size-"
  const QuizTag: string := "bra-quiz"

  predicate NonEmpty(t: string) {
    |t| > 0
  }

  /** A tag is a size tag when it starts with "bra-size-", in any letter case. */
  predicate IsSizeTag(t: string) {
    StartsWithIgnoreCase(t, SizeTagPrefix)
  }

  predicate NotSizeTag(t: string) {
    !IsSizeTag(t)
  }

  /** A tag as it can occur in a parsed list. */
  predicate WellFormedTag(t: string) {
    NonEmpty(t) && Trimmed(t) && ',' !in t
  }

  /** The tags of the field: split at commas, trimmed, empty ones dropped. */
  function ParseTags(value: string): (tags: seq<string>)
    ensures forall t :: t in tags ==> WellFormedTag(t)
  {
    var parts := Split(value, ',');
    var trimmed := Map(parts, Trim);
    forall t | t in trimmed
      ensures ',' !in t
    {
      var i :| 0 <= i < |trimmed| && trimmed[i] == t;
      assert ',' !in parts[i];
    }
    Filter(trimmed, NonEmpty)
  }

  /** The size tag: "bra-size-" and the main size with every run of white
      space replaced by one "-" ("30 DD/E" gives "bra-size-30-DD/E"). */
  function SizeTag(mainSize: string): (t: string)
    ensures IsSizeTag(t)
    ensures t[..|SizeTagPrefix|] == SizeTagPrefix
    ensures forall i :: |SizeTagPrefix| <= i < |t| ==> !IsWhitespace(t[i])
  {
    var t := SizeTagPrefix + ReplaceWhitespaceRuns(mainSize, '-');
    assert t[..|SizeTagPrefix|] == SizeTagPrefix;
    t
  }

  /** "bra-quiz" is a well-formed tag and not a size tag. */
  lemma QuizTagWellFormed()
    ensures NotSizeTag(QuizTag) && WellFormedTag(QuizTag)
  {
    assert AsciiLower(QuizTag[4]) != SizeTagPrefix[4];
  }

  /** `tags`, with "bra-quiz" pushed at the end unless it is already there. */
  function WithQuizTag(tags: seq<string>): (r: seq<string>)
    ensures forall t :: t in r <==> t in tags || t == QuizTag
    ensures QuizTag in tags ==> r == tags
    ensures QuizTag !in tags ==> |r| == |tags| + 1 && r[..|tags|] == tags && r[|tags|] == QuizTag
  {
    if QuizTag in tags then tags
    else
      var r := tags + [QuizTag];
      assert r[..|tags|] == tags;
      r
  }

  /** The tags kept, with "bra-quiz" added at the end when missing. */
  function KeptTags(value: string): (tags: seq<string>)
    ensures QuizTag in tags
    ensures forall t :: t in tags ==> NotSizeTag(t) && WellFormedTag(t)
    ensures forall t :: t in tags <==> (t in ParseTags(value) && NotSizeTag(t)) || t == QuizTag
  {
    QuizTagWellFormed();
    WithQuizTag(Filter(ParseTags(value), NotSizeTag))
  }

  /** The contact-tag rewrite for a main size. */
  function RewriteTags(value: string, mainSize: string): string {
    Join(KeptTags(value) + [SizeTag(mainSize)], ", ")
  }

  /** What the form submission writes into the tag field: the rewrite for a
      sized result, the field unchanged after an error. */
  function SubmitTags(value: string, q: QuizResult): (r: string)
    ensures q.ErrorRecord? ==> r == value
    ensures q.SizeRecord? ==> r == RewriteTags(value, q.mainSize)
  {
    match q
    case ErrorRecord(_) => value
    case SizeRecord(mainSize, _, _, _, _, _, _) => RewriteTags(value, mainSize)
  }

  /** A size tag is well formed when the main size has no comma. */
  lemma SizeTagWellFormed(mainSize: string)
    requires ',' !in mainSize
    ensures WellFormedTag(SizeTag(mainSize))
  {
    var t := SizeTag(mainSize);
    assert t[0] == 'b';
    assert !IsWhitespace(t[|t| - 1]) by {
      if |t| > |SizeTagPrefix| {
      } else {
        assert t == SizeTagPrefix;
      }
    }
    assert ',' !in t by {
      var rest := ReplaceWhitespaceRuns(mainSize, '-');
      assert t == SizeTagPrefix + rest;
      assert ',' !in rest;
    }
  }

  /** Parsing a list written with ", " gives the list back, as long as every
      tag is non-empty, trimmed and free of commas. */
  lemma {:induction false} ParseJoinedTags(tags: seq<string>)
    requires 1 <= |tags|
    requires forall i :: 0 <= i < |tags| ==> WellFormedTag(tags[i])
    ensures ParseTags(Join(tags, ", ")) == tags
  {
    JoinCommaSpace(tags);
    var parts := [tags[0]] + Map(tags[1..], Padded);
    assert forall i :: 0 <= i < |parts| ==> ',' !in parts[i] by {
      forall i | 0 <= i < |parts|
        ensures ',' !in parts[i]
      {
        if i > 0 {
          assert parts[i] == " " + tags[i];
        }
      }
    }
    SplitJoin(parts, ',');
    var trimmed := Map(parts, Trim);
    forall i | 0 <= i < |parts|
      ensures trimmed[i] == tags[i]
    {
      if i > 0 {
        assert parts[i] == [' '] + tags[i];
        TrimPadded(' ', tags[i]);
      }
    }
    assert trimmed == tags;
  }

  /** The rewritten field holds the kept tags, "bra-quiz" among them, then
      the size tag and nothing else. */
  lemma RewriteTagsList(value: string, mainSize: string)
    requires ',' !in mainSize
    ensures ParseTags(RewriteTags(value, mainSize)) == KeptTags(value) + [SizeTag(mainSize)]
  {
    var tags := KeptTags(value) + [SizeTag(mainSize)];
    SizeTagWellFormed(mainSize);
    assert forall i :: 0 <= i < |tags| ==> WellFormedTag(tags[i]) by {
      forall i | 0 <= i < |tags|
        ensures WellFormedTag(tags[i])
      {
        if i < |tags| - 1 {
          assert tags[i] in KeptTags(value);
        }
      }
    }
    ParseJoinedTags(tags);
  }

  /** After the rewrite the field has exactly one size tag, the last one,
      and "bra-quiz" is there. */
  lemma RewriteTagsShape(value: string, mainSize: string)
    requires ',' !in mainSize
    ensures var tags := ParseTags(RewriteTags(value, mainSize));
      && |tags| >= 2
      && tags[|tags| - 1] == SizeTag(mainSize)
      && (forall i :: 0 <= i < |tags| - 1 ==> !IsSizeTag(tags[i]))
      && QuizTag in tags
  {
    RewriteTagsList(value, mainSize);
    AppendedShape(KeptTags(value), SizeTag(mainSize));
  }

  /** Tags without a size tag, "bra-quiz" among them, followed by one more tag. */
  lemma AppendedShape(kept: seq<string>, last: string)
    requires QuizTag in kept
    requires forall t :: t in kept ==> !IsSizeTag(t)
    ensures var tags := kept + [last];
      && |tags| >= 2
      && tags[|tags| - 1] == last
      && (forall i :: 0 <= i < |tags| - 1 ==> !IsSizeTag(tags[i]))
      && QuizTag in tags
  {
    var tags := kept + [last];
    assert forall i :: 0 <= i < |tags| - 1 ==> tags[i] == kept[i];
  }

  /** Every tag of the field that was not a size tag survives the rewrite,
      and the rewrite adds only "bra-quiz" and the size tag. */
  lemma RewriteTagsKeeps(value: string, mainSize: string)
    requires ',' !in mainSize
    ensures var tags := ParseTags(RewriteTags(value, mainSize));
      && (forall t :: t in ParseTags(value) && !IsSizeTag(t) ==> t in tags)
      && (forall t :: t in tags ==> t == SizeTag(mainSize) || t == QuizTag || t in ParseTags(value))
  {
    RewriteTagsList(value, mainSize);
  }

  /** Rewriting twice with the same size is rewriting once. */
  lemma RewriteTagsIdempotent(value: string, mainSize: string)
    requires ',' !in mainSize
    ensures RewriteTags(RewriteTags(value, mainSize), mainSize) == RewriteTags(value, mainSize)
  {
    var once := RewriteTags(value, mainSize);
    var kept := KeptTags(value);
    var sizeTag := SizeTag(mainSize);
    RewriteTagsList(value, mainSize);
    assert ParseTags(once) == kept + [sizeTag];
    FilterAppend(kept, [sizeTag], NotSizeTag);
    assert Filter(kept, NotSizeTag) == kept;
    assert Filter([sizeTag], NotSizeTag) == [];
    assert Filter(ParseTags(once), NotSizeTag) == kept;
    assert KeptTags(once) == kept;
  }

  /** The main size of a sized result has no comma, so its tags are
      rewritten as above; its size tag is "bra-size-", the band, "-" and
      the cup letters ("bra-size-30-DD/E"). */
  lemma SubmittedSizeTag(m: Measurements, value: string)
    requires Calculate(m).Sized?
    ensures var q := Render(Calculate(m));
      && ',' !in q.mainSize
      && SubmitTags(value, q) == RewriteTags(value, q.mainSize)
      && SizeTag(q.mainSize) == SizeTagPrefix + IntToString(Calculate(m).main.band) + "-" + CupString(Calculate(m).main.cups)
  {
    var main := Calculate(m).main;
    MainBand(m);
    SizeSlug(main);
  }

  /** The slug of a size string with a non-negative band. */
  lemma SizeSlug(s: Size)
    requires 0 <= s.band
    ensures ',' !in SizeString(s)
    ensures SizeTag(SizeString(s)) == SizeTagPrefix + IntToString(s.band) + "-" + CupString(s.cups)
  {
    var a := IntToString(s.band);
    var b := CupString(s.cups);
    SizeStringWords(s);
    assert SizeString(s) == a + " " + b;
    ReplaceSingleBlank(a, b, '-');
  }

  /** The two words of a size string hold neither white space nor commas. */
  lemma SizeStringWords(s: Size)
    requires 0 <= s.band
    ensures forall i :: 0 <= i < |IntToString(s.band)| ==> !IsWhitespace(IntToString(s.band)[i])
    ensures forall i :: 0 <= i < |CupString(s.cups)| ==> !IsWhitespace(CupString(s.cups)[i])
    ensures ',' !in IntToString(s.band) && ',' !in CupString(s.cups)
  {
    CupStringLetters(s.cups);
  }

  /** One blank between two words without white space becomes `with`. */
  lemma ReplaceSingleBlank(a: string, b: string, with: char)
    requires !IsWhitespace(with)
    requires forall i :: 0 <= i < |a| ==> !IsWhitespace(a[i])
    requires forall i :: 0 <= i < |b| ==> !IsWhitespace(b[i])
    ensures ReplaceWhitespaceRuns(a + " " + b, with) == a + [with] + b
  {
    ReplaceRun(a, " ", b, with);
  }
}
